=== FILE: README.md ===
# Yandex Market catalog test suite: a verified model

This project models the logic of a Selenium/JUnit test suite for the
Yandex Market catalog. The suite opens the catalog and picks a category
and a subcategory. It sets a price range and brand filters, then scrolls
the result page to load every product card. It reads each card into a
`Product(title, price)` snapshot and searches for one product by its
title. Finally it checks, softly, that the product shows up again, that
every price and title in the snapshot respects the filters, and that
enough products were collected.

The browser is an oracle (`WebDriver.Browser`). It says which locators
`findElement` resolves, which ones an explicit wait sees in time, which
product cards are rendered, and what the document title is. Scroll
observations are functions from iteration number to what the page
reports. Everything the suite does to the browser is recorded as a trace
of `WebDriver.Command`s. Exceptions become values (`JavaLang.Result`).

Modules follow the program's structure:

- `JavaLang`, `JavaStrings`, `JavaInteger`: the Java platform semantics
  the code relies on. These are `int`/`long` wrap-around, `String.contains`,
  `replaceAll` with one character class, `String.replace`,
  `Integer.parseInt` and `Integer.toString`.
- `PriceText`, `Cards`: the two price parsers and the card readers.
- `Locators`: the XPath templates and placeholder substitution.
- `WebDriver`: the browser oracle, guarded steps and traces.
- `Entity`: `Product`, its `equals`/`hashCode`, and `saveProductFromElement`.
- `Pages`: the page object.
- `Scroller`: the two bounded scroll loops.
- `SoftChecker`: the four checks and JUnit's `assertAll`.
- `Steps`: `YandexMarketSteps`.

The repository's page classes do not agree on where the snapshot lives.
`YandexMarketSteps` and `Product.saveProductFromElement` read
`productsOnPage` from `YandexMarketBasePage`, but only `YandexMarketPage`
declares that field. The model therefore keeps the snapshot as a plain
`seq<Product>` passed between steps.

The two classes also read prices differently. `YandexMarketBasePage`, the
class `Product` and every step take, calls `Integer.parseInt` on the price
text as displayed. `YandexMarketPage` strips whitespace and non-digits
first. Card reading is parameterised by `Cards.PriceParser`: `Raw` is the
code as written, `Cleaning` the other class's parser. With `Raw`, one
titled card whose price text holds a space makes `getAllProductCards`
throw (`Steps.GetAllProductCards`); see Findings.

The brand check uses `String.contains` at
`src/main/java/steps/YandexMarketSteps.java:128`, which is
case-sensitive; see `Steps.BrandCheckIsCaseSensitive`.

## Model

| member | source | states |
|---|---|---|
| Entity.ProductEqualsIsValueEquality | src/main/java/entity/Product.java:37-43 | `equals` holds exactly when the prices and the titles are equal; it is reflexive and symmetric |
| Entity.StringHashIsPolynomial | src/main/java/entity/Product.java:47 | `String.hashCode`, which wraps at every step, equals the base-31 polynomial of the characters reduced once into `int` range |
| Entity.HashCodeIsPolynomial | src/main/java/entity/Product.java:45-48 | `Objects.hash(title, price)` is the polynomial 1, title hash, price in base 31, wrapped to `int`; it depends on title and price only |
| Entity.HashCodeConsistentWithEquals | src/main/java/entity/Product.java:37-48 | products that are `equals` have equal hash codes |
| Entity.HashCodeExamples | src/main/java/entity/Product.java:45-48 | concrete hash codes: `("", 0)` hashes to 961 and `("HP", 1)` to 72634 |
| Entity.ProductFromCard | src/main/java/entity/Product.java:29-31 | a card yields a product exactly when its title and its price can be read with the page class's parser; the product carries that title and price; a missing title throws first, otherwise the price's exception; with the cleaning parser the price is never negative |
| Entity.RawProductRejectsSpacedPrice | src/main/java/entity/Product.java:29-31 | as written (raw parser), a titled card whose price text holds a space, tab, no-break or typographic space throws `NumberFormatException` naming that text; the cleaning parser reads the same card as the value of its digits whenever there are some and they fit an `int` |
| Entity.RawProductKeepsSign | src/main/java/entity/Product.java:29-31 | on price text `"-500"` the raw parser stores -500 and the cleaning parser 500 |
| Entity.SaveProductFromElement | src/main/java/entity/Product.java:29-34 | for either parser, on success the snapshot grows by exactly one product, the card's, at the end, and earlier entries are unchanged; on failure it throws the card's exception |
| JavaInteger.ParseInt | src/main/java/pages/YandexMarketBasePage.java:221 | `Integer.parseInt` succeeds only on text with a digit; a non-digit anywhere except a leading sign makes it throw; a digit string, bare or after `+`, succeeds exactly when its value (leading zeros allowed) is at most 2147483647 and then gives that value; after `-` the bound is 2147483648 and the value is negated; every failure is `NumberFormatException` naming the input |
| JavaInteger.ParseIntAccepted | src/main/java/pages/YandexMarketBasePage.java:221 | every accepted text is an optional sign followed by a non-empty digit string, and the result is that string's value, negated after `-` |
| JavaInteger.NatToStringValue | src/main/java/pages/YandexMarketBasePage.java:158 | the decimal spelling written for a natural number is a non-empty digit string whose value is that number |
| JavaInteger.ParseIntToString | src/main/java/pages/YandexMarketBasePage.java:158 | `Integer.parseInt(Integer.toString(n)) == n` for every `int`, including negative ones |
| JavaStrings.RemoveAllMembers | src/main/java/pages/YandexMarketPage.java:223-224 | `replaceAll("[class]", "")` keeps exactly the characters outside the class |
| JavaStrings.RemoveAllAppend | src/main/java/pages/YandexMarketPage.java:223-224 | removal distributes over concatenation, so the kept characters stay in their original order |
| JavaStrings.RemoveAllSubsumed | src/main/java/pages/YandexMarketPage.java:223-224 | removing a class first changes nothing when a larger class is removed afterwards |
| JavaStrings.RemoveAllIdempotent | src/main/java/pages/YandexMarketPage.java:223-224 | removing the same class twice equals removing it once |
| JavaStrings.ReplaceAbsent | src/main/java/pages/YandexMarketBasePage.java:118 | `String.replace` returns a template that lacks the target unchanged |
| JavaStrings.ReplaceSkipsPrefix | src/main/java/pages/YandexMarketBasePage.java:118 | the left-to-right scan copies unchanged any prefix in which no occurrence starts |
| JavaStrings.NoMatchNotContains | src/main/java/pages/YandexMarketBasePage.java:118 | a part in which no match of the target starts holds no occurrence of it |
| JavaStrings.ReplaceJoin | src/main/java/pages/YandexMarketBasePage.java:118 | a template made of parts separated by the target, with no match starting in a part and none in the last part, becomes the same parts separated by the replacement: every occurrence is replaced, nothing else changes |
| Locators.SubstituteEveryPlaceholder | src/main/java/pages/YandexMarketBasePage.java:118-186 | the category, subcategory and brand locators replace every occurrence of their placeholder in the template, however many there are, and change nothing else |
| Locators.TemplateWithoutPlaceholder | src/main/java/pages/YandexMarketPage.java:110-178 | a template without its placeholder gives the template itself as the category, subcategory or brand locator |
| Locators.SinglePlaceholder | src/main/java/pages/YandexMarketPage.java:110 | a template `prefix + placeholder + suffix`, with no match starting in the prefix and no placeholder in the suffix, becomes `prefix + value + suffix`; no placeholder remains when none of the three holds its first character |
| Locators.CategoryLocatorShape | src/main/java/pages/YandexMarketBasePage.java:118 | the category locator is the template with the category in place of `*category*`, for any prefix in which no match starts (`*` included) and any suffix without the placeholder |
| Locators.SubcategoryLocatorShape | src/main/java/pages/YandexMarketBasePage.java:136 | the subcategory locator is the template with the subcategory in place of `*subcategory*`, for any prefix in which no match starts and any suffix without the placeholder |
| Locators.BrandLocatorShape | src/main/java/pages/YandexMarketBasePage.java:186 | the brand locator is the template with the brand in place of `*brand*`, for any prefix in which no match starts and any suffix without the placeholder |
| Locators.StarInTemplateExample | src/main/java/pages/YandexMarketBasePage.java:118 | a template that uses `*` in its own XPath before `*category*` is substituted correctly |
| Locators.PlaceholderFragmentInSuffixExample | src/main/java/pages/YandexMarketBasePage.java:118 | a suffix ending in a fragment of the placeholder, `x*category`, is left as it is |
| PriceText.CleanPrice | src/main/java/pages/YandexMarketPage.java:221-224 | the cleaning parser succeeds exactly when the text has an ASCII digit and the digits denote at most 2147483647; the result is the value of the digits in their order, never negative |
| PriceText.CleanPriceTextIsDigits | src/main/java/pages/YandexMarketPage.java:223-224 | the two-stage cleanup leaves exactly the ASCII digits, in order; the whitespace stage is subsumed by the non-digit stage |
| PriceText.CleanPriceTextIdempotent | src/main/java/pages/YandexMarketPage.java:223-224 | cleaning cleaned text changes nothing |
| PriceText.CleanPriceDependsOnDigitsOnly | src/main/java/pages/YandexMarketPage.java:222-224 | two texts with the same digit sequence get the same result |
| PriceText.CleanPriceIgnoresInsertedChar | src/main/java/pages/YandexMarketPage.java:223-224 | inserting any non-digit, in particular any `\s`, U+00A0 or U+2006 to U+200A, anywhere leaves the result unchanged |
| PriceText.CleanPriceNoDigits | src/main/java/pages/YandexMarketPage.java:222-224 | text without digits throws `NumberFormatException` on the empty string; it never yields 0 |
| PriceText.CleanPriceOfIntToString | src/main/java/pages/YandexMarketPage.java:222-224 | `Integer.toString(n)` parses back to `n` when `n >= 0` and to `-n` when negative, since the minus sign is stripped; `Integer.MIN_VALUE` overflows and throws |
| PriceText.CleanPriceRoubleExample | src/main/java/pages/YandexMarketPage.java:222-224 | `"12 345 ₽"` is priced 12345 |
| PriceText.CleanPriceNoBreakSpaceExample | src/main/java/pages/YandexMarketPage.java:223 | `"12\u00A0345"`, grouped with a no-break space, is priced 12345 |
| PriceText.CleanPriceMinusExample | src/main/java/pages/YandexMarketPage.java:224 | `"-500"` is priced 500 |
| PriceText.RawPrice | src/main/java/pages/YandexMarketBasePage.java:220-222 | the raw parser throws `NumberFormatException` on any text with a space, tab, no-break or typographic space; on success the text is non-empty, starts with a digit or sign, holds a digit, and every character after the first is an ASCII digit; a digit string above 2147483647 throws |
| PriceText.RawPriceRejectsLocalisedText | src/main/java/pages/YandexMarketBasePage.java:220-222 | the raw parser throws on `"12 345 ₽"`, `"12345₽"`, `""` and `"-"` |
| PriceText.PlainPriceExample | src/main/java/pages/YandexMarketBasePage.java:220-222 | on the bare digit string `"12345"` both parsers give 12345 |
| Cards.ProductCardTitle | src/main/java/pages/YandexMarketBasePage.java:215-218 | the title is read exactly when the card has a title element, and is that element's text; otherwise `NoSuchElementException` names the title locator |
| Cards.ProductCardPrice | src/main/java/pages/YandexMarketPage.java:221-224 | a card without a price element throws `NoSuchElementException` naming the price locator; otherwise the price is the cleaning parser's result on its text, never negative, the value of its digits |
| Cards.ProductCardPriceRaw | src/main/java/pages/YandexMarketBasePage.java:220-222 | a card without a price element throws `NoSuchElementException` naming the price locator; otherwise the price is `Integer.parseInt` of its text, which throws `NumberFormatException` whenever the text holds whitespace |
| Cards.CleanAgreesWithRaw | src/main/java/pages/YandexMarketPage.java:221-224 | wherever the raw parser succeeds with a non-negative price, the cleaning parser gives the same result |
| WebDriver.Perform | src/main/java/pages/YandexMarketBasePage.java:106-107 | guarded steps issue their commands in order; the run completes exactly when every awaited element is visible; otherwise it stops at the first invisible one with `TimeoutException` naming it |
| WebDriver.PerformAppend | src/main/java/steps/YandexMarketSteps.java:69-73 | performing two step lists in turn equals performing their concatenation, with the second skipped when the first throws |
| Pages.NewPage | src/main/java/pages/YandexMarketPage.java:66-77 | the constructor succeeds exactly when the search input, search button and catalog button are found; the first one missing throws; a new page has an empty `productsOnPage` |
| Pages.FindViaSearchInput | src/main/java/pages/YandexMarketBasePage.java:94-98 | the search types the query and then presses Enter into the search input, or throws `NoSuchElementException` when the input is missing |
| Pages.ClickOnCatalogButton | src/main/java/pages/YandexMarketBasePage.java:105-107 | with the catalog button visible in time the run is exactly one click on it; otherwise no command is issued and it times out naming the button |
| Pages.CategoryHoverStep | src/main/java/pages/YandexMarketBasePage.java:117-125 | waits for the category locator and hovers over that same element; a template without `*category*` is used as it is |
| Pages.SubcategoryClickStep | src/main/java/pages/YandexMarketBasePage.java:135-142 | waits for the subcategory locator and clicks that same element; a template without `*subcategory*` is used as it is |
| Pages.PriceMinStep | src/main/java/pages/YandexMarketBasePage.java:151-158 | types into the lower-bound field it waited for a text that `Integer.parseInt` reads back as the bound |
| Pages.PriceMaxStep | src/main/java/pages/YandexMarketBasePage.java:167-174 | types into the upper-bound field it waited for a text that `Integer.parseInt` reads back as the bound |
| Pages.BrandCheckboxSteps | src/main/java/pages/YandexMarketBasePage.java:184-193 | one wait-and-click step per brand, in list order, on that brand's substituted locator |
| Pages.ClickBrandCheckbox | src/main/java/pages/YandexMarketBasePage.java:184-193 | exactly one click per brand, in list order; a missing checkbox ends the loop with a timeout naming it, after the clicks for the brands before it |
| Pages.GetAllProductCardTitlesFromList | src/main/java/pages/YandexMarketBasePage.java:232-240 | the title list has the same length as the card list and its i-th element is the title of the i-th card; a card without a title throws |
| Scroller.ScrollLoop | src/main/java/helpers/Scroller.java:28-49 | the bounded loop runs at most `maxSteps` and at least one iteration; each one is a screenshot followed by one scroll; it stops after the first observation that says stop |
| Scroller.ScrollToBottomOfPage | src/main/java/helpers/Scroller.java:20-50 | 1 to 20 iterations, each a screenshot then a scroll by +600; it ends at the first observation with offset + windowHeight >= docHeight, or after the 20th |
| Scroller.ScrollToTopOfPage | src/main/java/helpers/Scroller.java:61-89 | 1 to 50 iterations, each a screenshot then a scroll by -1000; it ends at the first observed offset <= 0, or after the 50th |
| Scroller.EndlessPageStopsAtCap | src/main/java/helpers/Scroller.java:26-28 | a page that never reports its bottom is scrolled exactly 20 times |
| Scroller.ShortPageScrollsOnce | src/main/java/helpers/Scroller.java:28-47 | a page already at the bottom is still screenshotted and scrolled once, because the check follows the scroll |
| Scroller.ReachedBottomWithoutOverflow | src/main/java/helpers/Scroller.java:46 | for offsets and heights below 2^62 the `long` sum is exact |
| Scroller.ReachedBottomOverflow | src/main/java/helpers/Scroller.java:46 | at the top of the `long` range the sum wraps negative and the bottom test fails |
| SoftChecker.CheckProductFound | src/main/java/helpers/SoftChecker.java:13-21 | passes exactly when the condition holds; the failure carries no message, since `assertTrue` is called without one |
| SoftChecker.CheckPriceFilter | src/main/java/helpers/SoftChecker.java:24-29 | passes exactly when the list of flagged titles is empty, and otherwise fails with that list |
| SoftChecker.PriceFilterIgnoresBounds | src/main/java/helpers/SoftChecker.java:24-29 | `minPrice` and `maxPrice` never change the verdict |
| SoftChecker.CheckBrandFilter | src/main/java/helpers/SoftChecker.java:32-41 | passes exactly when the list of flagged titles is empty, and otherwise fails with that list |
| SoftChecker.CheckProductsCount | src/main/java/helpers/SoftChecker.java:44-48 | passes exactly when actual > expected; the failure names the count found and nothing else, as its message does |
| SoftChecker.ProductsCountIsStrict | src/main/java/helpers/SoftChecker.java:44-48 | finding exactly the expected number fails; one more passes |
| SoftChecker.FailuresMembers | src/main/java/steps/YandexMarketSteps.java:138-145 | a failure is reported exactly when some check failed with it |
| SoftChecker.FailuresEmpty | src/main/java/steps/YandexMarketSteps.java:138-145 | no failure is reported exactly when every check passed |
| SoftChecker.AssertAll | src/main/java/steps/YandexMarketSteps.java:138-145 | the outcome passes exactly when all checks passed; otherwise every failed check's failure is reported, in order |
| Steps.ChooseCategory | src/main/java/steps/YandexMarketSteps.java:52-56 | catalog click, category hover, subcategory click, in that order; the run completes exactly when all three elements appear; otherwise the first element that does not appear ends it with a `TimeoutException` naming that element, after the commands for the elements before it |
| Steps.SetFilters | src/main/java/steps/YandexMarketSteps.java:69-73 | it types the lower bound, then the upper bound, then clicks one brand checkbox per brand in list order; it completes exactly when every field and checkbox appears |
| Steps.SetFiltersIsSequential | src/main/java/steps/YandexMarketSteps.java:69-73 | `setFilters` is the two price steps followed by `clickBrandCheckbox` |
| Steps.TypedPricesParseBack | src/main/java/pages/YandexMarketBasePage.java:151-175 | the text typed into each price field parses back to the bound it came from |
| Steps.GoBySearchQuery | src/main/java/steps/YandexMarketSteps.java:176-179 | the scroll to the top always happens first; the search then completes exactly when the search input is found, typing the query and pressing Enter; otherwise the trace is the scroll alone and the run throws `NoSuchElementException` naming the search input |
| Steps.RawCollectionRejectsSpacedPrice | src/main/java/steps/YandexMarketSteps.java:88-92 | as written, one titled card whose price text holds whitespace makes the card list unreadable |
| Steps.SaveAll | src/main/java/steps/YandexMarketSteps.java:88-92 | for either parser, one product per card is appended, in card order, and earlier entries are kept; the loop fails exactly when some card cannot be read, with the first such card's exception |
| Steps.GetAllProductCards | src/main/java/steps/YandexMarketSteps.java:85-93 | the downward scroll loop's commands come first, then the upward loop's; then the snapshot grows by exactly one product per rendered card, in card order; as written (raw parser), one titled card whose price text holds whitespace makes it throw; the cards are those `findElements` returns in `getAllProductCardsOnPage` (`src/main/java/pages/YandexMarketBasePage.java:203-205`), which never throws and may return none |
| Steps.ViolatorsMembers | src/main/java/steps/YandexMarketSteps.java:123-131 | a title is listed exactly when some flagged product carries it |
| Steps.ViolatorsEmpty | src/main/java/steps/YandexMarketSteps.java:123-131 | nothing is listed exactly when no product is flagged |
| Steps.ViolatorsAppend | src/main/java/steps/YandexMarketSteps.java:123-131 | classifying a concatenated snapshot lists the first part's titles before the second's, so the lists keep snapshot order |
| Steps.PriceViolatorsEmptyIff | src/main/java/steps/YandexMarketSteps.java:125-127 | the price list is empty exactly when every price lies in `[min, max]`; prices equal to a bound are not flagged |
| Steps.EmptyBrandListFlagsEveryNamedProduct | src/main/java/steps/YandexMarketSteps.java:128 | with no brands, every product with a non-empty title is flagged |
| Steps.EmptyTitlesNeverFlagged | src/main/java/steps/YandexMarketSteps.java:128 | products with an empty title never fail the brand check |
| Steps.BrandCheckIsCaseSensitive | src/main/java/steps/YandexMarketSteps.java:128 | `"lenovo ThinkPad"` is flagged against brands `Lenovo` and `HP` |
| Steps.ClassifySnapshot | src/main/java/steps/YandexMarketSteps.java:121-131 | the single pass over the snapshot builds exactly the price list and the brand list defined by the two rules |
| Steps.CheckedProduct | src/main/java/steps/YandexMarketSteps.java:133 | the checked product is the snapshot entry at the index when 0 <= index < size; any other index throws `IndexOutOfBoundsException` |
| Steps.IsFoundIffPresent | src/main/java/steps/YandexMarketSteps.java:135-136 | the product counts as found exactly when some after-search product has an equal title and an equal price, i.e. when it is in that snapshot |
| Steps.RunChecksSoftly | src/main/java/steps/YandexMarketSteps.java:120-146 | a bad index throws before any check runs. Otherwise the run passes exactly when four things hold: the checked product is found after the search, every price is within bounds, every named product matches a brand, and more products than required were collected |
| Steps.RunChecksSoftlyReportsEveryFailure | src/main/java/steps/YandexMarketSteps.java:138-145 | every failing check is reported whatever the other checks did: the product check without a message, the others with their own |
| Steps.SoftCheckProductsAmountOnPage | src/main/java/steps/YandexMarketSteps.java:237-239 | passes exactly when there are strictly more cards than required; the failure names both the threshold and the card count |
| Steps.AmountCheckAgreesWithCountCheck | src/main/java/steps/YandexMarketSteps.java:237-238 | the card-count check and `checkProductsCount` give the same verdict on every input; when they fail, their reports differ |
| Steps.CheckPageTitle | src/main/java/steps/YandexMarketSteps.java:208-210 | passes exactly when the document title contains the subcategory, case-sensitively |
| Steps.EmptySubcategoryAlwaysMatches | src/main/java/steps/YandexMarketSteps.java:209 | an empty subcategory matches every title |
| Steps.DataSetScenario | src/main/java/helpers/DataProvider.java:17-25 | uses the suite's data set: prices 10000 to 20000, brands Lenovo and HP, index 0, more than 12 required. When every product fits the filters and the first is found again, the run passes exactly when more than 12 products were collected; with exactly 12 it fails with the count message alone |

## Left out

- WebDriver timing: explicit waits, FluentWait pauses and
  `System.currentTimeMillis` are not modelled. A wait either sees its
  element (it is in the oracle's `visible` set) or throws `TimeoutException`.
- The browser is static within one call. Hovering, clicking and typing do
  not change what the oracle reports. Pages before and after an action are
  separate `Browser` values supplied by the caller.
- Screenshots and Allure reporting (`Screenshoter`, `ElementScreenshotProxy`,
  `AllureScreenshotListener`, `Allure.step` messages) are not modelled.
  These never fail a test. Only the request for a screenshot is
  recorded, as `Screenshot` in the trace.
- Driver lifecycle (`Driver`, `DriverFactory`, `BaseTests`) and
  `openSite` are session management and navigation with no logic to
  state.
- `XpathProperties` declares `ymCardTitleAddonXpath()` but no
  `ymCardPriceAddonXpath()`, which both `getProductCardPrice` variants
  call, just as `productsOnPage` is read from a class that does not declare
  it. The model supplies the price sub-element's locator as
  `Xpaths.cardPriceAddon`.
- Configuration loading (`XpathProperties`, `TestProperties`,
  `Properties`) is not modelled. XPath templates are the fields of
  `Locators.Xpaths`, supplied by the caller.
- `Steps.java` and `Tests.java` are not modelled. They call constructors
  and methods that the shown page classes do not declare.
- Commented-out code in `YandexMarketSteps.java` is not modelled.
- `Scroller.goToElementOnPage` is not modelled. It is one script call,
  and its only callers are commented out.
- `helpers/Assertions.java` is a thin wrapper around JUnit and is not
  modelled. `DataProvider.java` is used only as the concrete values of
  `Steps.DataSetScenario`.
- JavaInteger.ParseInt: `Integer.parseInt` also accepts non-ASCII decimal
  digits, such as Arabic-Indic ones, through `Character.digit`. The model
  accepts ASCII digits only, so `PriceText.RawPrice` rejects such text
  where Java would not. The cleaning parser is unaffected, because it
  has already removed every non-ASCII character.
- PriceText.RawPrice: it inherits the ASCII-only digits of
  `JavaInteger.ParseInt`, so price text written in non-ASCII decimal
  digits is rejected where `Integer.parseInt` would accept it.
- Entity.StringHashIsPolynomial: the hash runs over Unicode scalar values.
  Java hashes UTF-16 code units, so titles with characters outside the
  Basic Multilingual Plane hash differently.
- JavaStrings.Replace requires a non-empty target. Every call site passes a
  fixed, non-empty placeholder.
- Steps.SaveAll: when a card cannot be read, Java has already appended
  the earlier products to the shared list before the exception escapes.
  The model returns only the exception, not that partial list.
- The getters of `Product` are the datatype's fields, and a datatype value
  cannot change, so there is no separate member for them.
- Scroller.ScrollLoop: the observation functions stand for whatever the
  page reports after each scroll. How the scroll commands change those
  reports is not modelled.

## Findings

| source | as written | input that shows it | evidently intended | confidence | as-written member | corrected member |
|---|---|---|---|---|---|---|
| src/main/java/pages/YandexMarketBasePage.java:220-222 | `Integer.parseInt` on the card's price text as displayed | `"12 345 ₽"`, the grouped, currency-suffixed form cards display, throws `NumberFormatException`, and through `Product.saveProductFromElement` ends `getAllProductCards` | strip whitespace and non-digits first, as `YandexMarketPage.getProductCardPrice` does, giving 12345 | medium, not executed | PriceText.RawPriceRejectsLocalisedText | PriceText.CleanPriceRoubleExample |

=== FILE: cards.dfy ===
/**
 * Reading a product card: its title text and its price, the latter in the
 * two variants the page objects implement.
 */
module Cards {
  import opened JavaLang
  import opened Locators
  import opened WebDriver
  import opened JavaStrings
  import opened JavaInteger
  import opened PriceText

  /**
   * Which `getProductCardPrice` reads a card: `Raw` is the one of
   * `YandexMarketBasePage`, the class every step and `Product` take;
   * `Cleaning` is the one of `YandexMarketPage`.
   */
  datatype PriceParser = Raw | Cleaning

  /** `getProductCardTitle`: the text of the card's title sub-element. */
  function ProductCardTitle(card: Card, xp: Xpaths): (r: Result<string>)
    ensures r.Ok? <==> card.title.Some?
    ensures r.Ok? ==> r.value == card.title.value
    ensures r.Throws? ==> r.exception == NoSuchElementException(xp.cardTitleAddon)
  {
    match card.title
    case Some(text) => Ok(text)
    case None => Throws(NoSuchElementException(xp.cardTitleAddon))
  }

  /** `YandexMarketPage.getProductCardPrice`: the cleaning parser on the price sub-element's text. */
  function ProductCardPrice(card: Card, xp: Xpaths): (r: Result<Int32>)
    ensures card.priceText.None? ==> r == Throws(NoSuchElementException(xp.cardPriceAddon))
    ensures card.priceText.Some? ==> r == CleanPrice(card.priceText.value)
    ensures r.Ok? ==> r.value >= 0 && r.value == DecimalValue(Digits(card.priceText.value))
  {
    match card.priceText
    case Some(text) => CleanPrice(text)
    case None => Throws(NoSuchElementException(xp.cardPriceAddon))
  }

  /** The price text holds a whitespace character the raw parser cannot read past. */
  predicate HasSpacedPrice(card: Card) {
    card.priceText.Some? && exists i :: 0 <= i < |card.priceText.value| && IsPriceWhitespace(card.priceText.value[i])
  }

  /** `YandexMarketBasePage.getProductCardPrice`: `Integer.parseInt` on the price text as it is. */
  function ProductCardPriceRaw(card: Card, xp: Xpaths): (r: Result<Int32>)
    ensures card.priceText.None? ==> r == Throws(NoSuchElementException(xp.cardPriceAddon))
    ensures card.priceText.Some? ==> r == RawPrice(card.priceText.value)
    ensures HasSpacedPrice(card) ==> r == Throws(NumberFormatException(card.priceText.value))
  {
    match card.priceText
    case Some(text) => RawPrice(text)
    case None => Throws(NoSuchElementException(xp.cardPriceAddon))
  }

  /** The price as the chosen page class reads it. */
  function CardPrice(card: Card, xp: Xpaths, parser: PriceParser): Result<Int32> {
    match parser
    case Raw => ProductCardPriceRaw(card, xp)
    case Cleaning => ProductCardPrice(card, xp)
  }

  /** Wherever the raw parser succeeds on a non-negative price, the cleaning parser agrees with it. */
  lemma CleanAgreesWithRaw(text: string)
    requires RawPrice(text).Ok? && RawPrice(text).value >= 0
    ensures CleanPrice(text) == RawPrice(text)
  {
    ParseIntAccepted(text);
    SignedDigitsKeepBody(text);
    var v := RawPrice(text).value;
    assert v == DecimalValue(Digits(text)) <= MaxInt;
    assert CleanPrice(text) == Ok(v);
  }

  /** An optionally signed digit string keeps exactly its digits under the cleanup. */
  lemma SignedDigitsKeepBody(text: string)
    requires |text| > 0
    requires AllDigits(if IsSign(text[0]) then text[1..] else text)
    ensures Digits(text) == (if IsSign(text[0]) then text[1..] else text)
  {
    var body := if IsSign(text[0]) then text[1..] else text;
    if IsSign(text[0]) {
      assert text == [text[0]] + body;
      RemoveAllAppend([text[0]], body, IsNonDigit);
      assert RemoveAll([text[0]], IsNonDigit) == [] by {
        assert [text[0]][1..] == [];
      }
    }
    RemoveAllNothing(body, IsNonDigit);
  }
}

=== FILE: java_integer.dfy ===
/**
 * `Integer.parseInt(String)` and `Integer.toString(int)` in base ten.
 */
module JavaInteger {
  import opened JavaLang
  import opened JavaStrings

  function DigitValue(c: char): nat
    requires IsAsciiDigit(c)
  {
    (c as int) - ('0' as int)
  }

  /** The number a string of decimal digits denotes, leading zeros allowed. */
  function DecimalValue(d: string): nat
    requires AllDigits(d)
  {
    if |d| == 0 then 0 else 10 * DecimalValue(d[..|d| - 1]) + DigitValue(d[|d| - 1])
  }

  predicate IsSign(c: char) {
    c == '-' || c == '+'
  }

  /**
   * `Integer.parseInt(s)`: an optional leading '-' or '+', then one or more
   * digits, denoting a value in the range of `int`; anything else throws
   * `NumberFormatException`.
   */
  function ParseInt(s: string): (r: Result<Int32>)
    ensures r.Ok? ==> exists i :: 0 <= i < |s| && IsAsciiDigit(s[i])
    ensures (exists i :: 0 <= i < |s| && !IsAsciiDigit(s[i]) && !(i == 0 && IsSign(s[i]))) ==> r.Throws?
    ensures r.Throws? ==> r.exception == NumberFormatException(s)
    ensures |s| > 0 && AllDigits(s) ==>
      (r.Ok? <==> DecimalValue(s) <= MaxInt) && (r.Ok? ==> r.value == DecimalValue(s))
    ensures |s| > 1 && s[0] == '+' && AllDigits(s[1..]) ==>
      (r.Ok? <==> DecimalValue(s[1..]) <= MaxInt) && (r.Ok? ==> r.value == DecimalValue(s[1..]))
    ensures |s| > 1 && s[0] == '-' && AllDigits(s[1..]) ==>
      (r.Ok? <==> DecimalValue(s[1..]) <= MaxInt + 1) && (r.Ok? ==> r.value == -(DecimalValue(s[1..]) as int))
  {
    if |s| == 0 then Throws(NumberFormatException(s))
    else
      var body := if IsSign(s[0]) then s[1..] else s;
      if |body| == 0 || !AllDigits(body) then Throws(NumberFormatException(s))
      else
        var magnitude: int := DecimalValue(body);
        var v: int := if s[0] == '-' then -magnitude else magnitude;
        if MinInt <= v <= MaxInt then Ok(v) else Throws(NumberFormatException(s))
  }

  /** A successful parse is an optional sign followed by a non-empty digit string, whose value it carries. */
  lemma ParseIntAccepted(s: string)
    requires ParseInt(s).Ok?
    ensures |s| > 0
    ensures var body := if IsSign(s[0]) then s[1..] else s;
      && |body| > 0 && AllDigits(body)
      && ParseInt(s).value == if s[0] == '-' then -(DecimalValue(body) as int) else DecimalValue(body)
  {
  }

  function DigitChar(d: nat): (c: char)
    requires d < 10
    ensures IsAsciiDigit(c) && DigitValue(c) == d
  {
    ('0' as int + d) as char
  }

  /** The shortest decimal spelling of `n`. */
  function NatToString(n: nat): string
    decreases n
  {
    if n < 10 then [DigitChar(n)] else NatToString(n / 10) + [DigitChar(n % 10)]
  }

  /** `Integer.toString(n)`: a '-' for negative values, then the digits of the magnitude. */
  function IntToString(n: int): string {
    if n < 0 then "-" + NatToString(-n) else NatToString(n)
  }

  /** The digits `NatToString` writes denote `n`, and a number never starts with a sign. */
  lemma {:induction false} NatToStringValue(n: nat)
    ensures |NatToString(n)| > 0 && AllDigits(NatToString(n))
    ensures DecimalValue(NatToString(n)) == n
    decreases n
  {
    if n >= 10 {
      NatToStringValue(n / 10);
      var prefix := NatToString(n / 10);
      var s := prefix + [DigitChar(n % 10)];
      assert s[..|s| - 1] == prefix;
    }
  }

  /** `Integer.parseInt` reads back exactly the `int` that `Integer.toString` wrote. */
  lemma ParseIntToString(n: Int32)
    ensures ParseInt(IntToString(n)) == Ok(n)
  {
    if n < 0 {
      ParseIntOfNegative(n);
    } else {
      ParseIntOfNatString(n);
    }
  }

  lemma ParseIntOfNatString(n: nat)
    requires n <= MaxInt
    ensures ParseInt(NatToString(n)) == Ok(n)
  {
    NatToStringValue(n);
    assert !IsSign(NatToString(n)[0]);
  }

  lemma ParseIntOfNegative(n: int)
    requires MinInt <= n < 0
    ensures ParseInt("-" + NatToString(-n)) == Ok(n)
  {
    var magnitude: nat := -n;
    NatToStringValue(magnitude);
    var s := "-" + NatToString(magnitude);
    assert s[0] == '-' && s[1..] == NatToString(magnitude);
  }
}

=== FILE: java_lang.dfy ===
/**
 * The few Java platform facts the suite relies on: the ranges of `int` and
 * `long`, two's-complement wrap-around, and the exceptions the core can
 * raise, which the model turns into values.
 */
module JavaLang {

  const MinInt: int := -0x8000_0000
  const MaxInt: int := 0x7FFF_FFFF
  const MinLong: int := -0x8000_0000_0000_0000
  const MaxLong: int := 0x7FFF_FFFF_FFFF_FFFF

  /** Java `int`. */
  type Int32 = x: int | -0x8000_0000 <= x <= 0x7FFF_FFFF

  /** Java `long`. */
  type Int64 = x: int | -0x8000_0000_0000_0000 <= x <= 0x7FFF_FFFF_FFFF_FFFF

  /** The `int` that 32-bit two's-complement arithmetic yields for the mathematical value `x`. */
  function Wrap32(x: int): (r: Int32)
    ensures (x - r) % 0x1_0000_0000 == 0
    ensures MinInt <= x <= MaxInt ==> r == x
  {
    (x + 0x8000_0000) % 0x1_0000_0000 - 0x8000_0000
  }

  /** The `long` that 64-bit two's-complement arithmetic yields for the mathematical value `x`. */
  function Wrap64(x: int): (r: Int64)
    ensures (x - r) % 0x1_0000_0000_0000_0000 == 0
    ensures MinLong <= x <= MaxLong ==> r == x
  {
    (x + 0x8000_0000_0000_0000) % 0x1_0000_0000_0000_0000 - 0x8000_0000_0000_0000
  }

  /** Wrapping to `int` forgets whole multiples of 2^32. */
  lemma Wrap32Periodic(x: int, k: int)
    ensures Wrap32(x + k * 0x1_0000_0000) == Wrap32(x)
  {
    var a := x + 0x8000_0000;
    assert a == 0x1_0000_0000 * (a / 0x1_0000_0000) + a % 0x1_0000_0000;
    Mod32Unique(a + k * 0x1_0000_0000, a / 0x1_0000_0000 + k, a % 0x1_0000_0000);
  }

  /** Division by 2^32 has a unique remainder. */
  lemma Mod32Unique(n: int, q: int, r: int)
    requires 0 <= r < 0x1_0000_0000 && n == 0x1_0000_0000 * q + r
    ensures n % 0x1_0000_0000 == r
  {
    var q' := n / 0x1_0000_0000;
    assert n == 0x1_0000_0000 * q' + n % 0x1_0000_0000;
  }

  /** Wrapping an intermediate result and then continuing `31 * h + c` wraps to the same `int`. */
  lemma Wrap32Step(x: int, c: int)
    ensures Wrap32(31 * Wrap32(x) + c) == Wrap32(31 * x + c)
  {
    var w := Wrap32(x);
    var q := (x - w) / 0x1_0000_0000;
    assert x - w == 0x1_0000_0000 * q;
    assert 31 * w + c == (31 * x + c) + (-31 * q) * 0x1_0000_0000;
    Wrap32Periodic(31 * x + c, -31 * q);
  }

  datatype Option<+T> = None | Some(value: T)

  /** The exceptions the modelled code lets escape. */
  datatype Exception =
    | NumberFormatException(input: string)
    | NoSuchElementException(locator: string)
    | TimeoutException(locator: string)
    | IndexOutOfBoundsException(index: int, length: int)

  /** A call that either returns a value or throws. */
  datatype Result<+T> = Ok(value: T) | Throws(exception: Exception)
}

=== FILE: java_strings.dfy ===
/**
 * The `java.lang.String` operations the core uses: `contains`,
 * `replaceAll` with a single character class and an empty replacement,
 * and `replace` of a literal target. Strings are sequences of characters
 * and every comparison is exact, character by character.
 */
module JavaStrings {

  /** `t` occurs in `s` starting at index `i`. */
  predicate OccursAt(s: string, t: string, i: nat) {
    i + |t| <= |s| && s[i..i + |t|] == t
  }

  /**
   * `s.contains(t)`: case-sensitive, and true for every `s` when `t` is
   * empty.
   */
  predicate Contains(s: string, t: string) {
    exists i | 0 <= i <= |s| - |t| :: OccursAt(s, t, i)
  }

  /** A string lacking the first character of `t` cannot contain `t`. */
  lemma FirstCharAbsent(s: string, t: string)
    requires |t| > 0 && t[0] !in s
    ensures !Contains(s, t)
  {
  }

  /** `\d` without the UNICODE_CHARACTER_CLASS flag: the ASCII digits only. */
  predicate IsAsciiDigit(c: char) {
    '0' <= c <= '9'
  }

  predicate IsNonDigit(c: char) {
    !IsAsciiDigit(c)
  }

  predicate AllDigits(s: string) {
    forall i :: 0 <= i < |s| ==> IsAsciiDigit(s[i])
  }

  /**
   * `s.replaceAll("[...]", "")` for a pattern that is one character class:
   * every character of the class is removed, the others are kept in order.
   */
  function RemoveAll(s: string, cls: char -> bool): (r: string)
    ensures |r| <= |s|
    ensures forall i :: 0 <= i < |r| ==> !cls(r[i])
  {
    if |s| == 0 then []
    else (if cls(s[0]) then [] else [s[0]]) + RemoveAll(s[1..], cls)
  }

  /** A character survives the removal exactly when it occurs in `s` and is not in the class. */
  lemma {:induction false} RemoveAllMembers(s: string, cls: char -> bool)
    ensures forall c :: c in RemoveAll(s, cls) <==> c in s && !cls(c)
  {
    if |s| > 0 {
      RemoveAllMembers(s[1..], cls);
      assert s == [s[0]] + s[1..];
    }
  }

  /** Removal distributes over concatenation, so kept characters keep their order. */
  lemma {:induction false} RemoveAllAppend(a: string, b: string, cls: char -> bool)
    ensures RemoveAll(a + b, cls) == RemoveAll(a, cls) + RemoveAll(b, cls)
  {
    if |a| == 0 {
      assert a + b == b;
    } else {
      assert (a + b)[0] == a[0];
      assert (a + b)[1..] == a[1..] + b;
      RemoveAllAppend(a[1..], b, cls);
    }
  }

  /** A string with no character of the class is left as it is. */
  lemma {:induction false} RemoveAllNothing(s: string, cls: char -> bool)
    requires forall i :: 0 <= i < |s| ==> !cls(s[i])
    ensures RemoveAll(s, cls) == s
  {
    if |s| > 0 {
      RemoveAllNothing(s[1..], cls);
    }
  }

  /** Removing a class twice removes nothing more the second time. */
  lemma RemoveAllIdempotent(s: string, cls: char -> bool)
    ensures RemoveAll(RemoveAll(s, cls), cls) == RemoveAll(s, cls)
  {
    RemoveAllNothing(RemoveAll(s, cls), cls);
  }

  /** Removing a smaller class first does not change the result of removing a larger one. */
  lemma {:induction false} RemoveAllSubsumed(s: string, small: char -> bool, large: char -> bool)
    requires forall c :: small(c) ==> large(c)
    ensures RemoveAll(RemoveAll(s, small), large) == RemoveAll(s, large)
  {
    if |s| > 0 {
      RemoveAllSubsumed(s[1..], small, large);
      var head := if small(s[0]) then [] else [s[0]];
      RemoveAllAppend(head, RemoveAll(s[1..], small), large);
      if !small(s[0]) {
        assert RemoveAll(head, large) == (if large(s[0]) then [] else [s[0]]) by {
          assert head[1..] == [];
        }
      }
    }
  }

  /**
   * `s.replace(target, replacement)`: scanning left to right, every
   * occurrence of `target` that does not overlap an earlier replaced one is
   * replaced.
   */
  function Replace(s: string, target: string, replacement: string): string
    requires |target| > 0
    decreases |s|
  {
    if |s| < |target| then s
    else if s[..|target|] == target then replacement + Replace(s[|target|..], target, replacement)
    else [s[0]] + Replace(s[1..], target, replacement)
  }

  /** A string without the target is returned unchanged. */
  lemma {:induction false} ReplaceAbsent(s: string, target: string, replacement: string)
    requires |target| > 0 && !Contains(s, target)
    ensures Replace(s, target, replacement) == s
  {
    if |s| >= |target| {
      assert !OccursAt(s, target, 0);
      assert !Contains(s[1..], target) by {
        forall i | 0 <= i <= |s[1..]| - |target| && OccursAt(s[1..], target, i)
          ensures false
        {
          assert s[1..][i..i + |target|] == s[i + 1..i + 1 + |target|];
          assert OccursAt(s, target, i + 1);
        }
      }
      ReplaceAbsent(s[1..], target, replacement);
    }
  }

  /**
   * No occurrence of `target` starts inside `p`, even when `p` is directly
   * followed by `target` itself.
   */
  predicate NoMatchStartsIn(p: string, target: string) {
    forall i :: 0 <= i < |p| ==> !OccursAt(p + target, target, i)
  }

  /** A part lacking the first character of the target has no match starting in it. */
  lemma FirstCharAbsentNoMatch(p: string, target: string)
    requires |target| > 0 && target[0] !in p
    ensures NoMatchStartsIn(p, target)
  {
  }

  /** The scan copies a prefix in which no match starts. */
  lemma {:induction false} ReplaceSkipsPrefix(a: string, c: string, target: string, replacement: string)
    requires |target| > 0
    requires forall i :: 0 <= i < |a| ==> !OccursAt(a + c, target, i)
    ensures Replace(a + c, target, replacement) == a + Replace(c, target, replacement)
  {
    if |a| == 0 {
      assert a + c == c;
    } else {
      var s := a + c;
      var tail := a[1..] + c;
      assert s[1..] == tail;
      forall i | 0 <= i < |a[1..]|
        ensures !OccursAt(tail, target, i)
      {
        assert !OccursAt(s, target, i + 1);
        if i + |target| <= |tail| {
          assert tail[i..i + |target|] == s[i + 1..i + 1 + |target|];
        }
      }
      ReplaceSkipsPrefix(a[1..], c, target, replacement);
      assert !OccursAt(s, target, 0);
      ReplaceCopiesHead(s, target, replacement);
      assert [s[0]] + a[1..] == a;
    }
  }

  /** Where no match starts at the head, the scan copies the first character. */
  lemma ReplaceCopiesHead(s: string, target: string, replacement: string)
    requires |target| > 0 && |s| > 0 && !OccursAt(s, target, 0)
    ensures Replace(s, target, replacement) == [s[0]] + Replace(s[1..], target, replacement)
  {
    if |s| < |target| {
      assert Replace(s[1..], target, replacement) == s[1..];
      assert [s[0]] + s[1..] == s;
    }
  }

  /** The parts of a template, separated by `sep`. */
  function Join(parts: seq<string>, sep: string): string
    requires |parts| > 0
  {
    if |parts| == 1 then parts[0] else parts[0] + sep + Join(parts[1..], sep)
  }

  /** A part in which no match starts holds no occurrence at all. */
  lemma NoMatchNotContains(p: string, target: string)
    requires |target| > 0 && NoMatchStartsIn(p, target)
    ensures !Contains(p, target)
  {
    forall i | 0 <= i <= |p| - |target|
      ensures !OccursAt(p, target, i)
    {
      assert (p + target)[i..i + |target|] == p[i..i + |target|];
      assert !OccursAt(p + target, target, i);
    }
  }

  /**
   * When no match starts inside any part but the last, and the last holds
   * no occurrence, a template made of parts joined by the target becomes
   * those parts joined by the replacement: every occurrence is replaced
   * and nothing else changes.
   */
  lemma {:induction false} ReplaceJoin(parts: seq<string>, target: string, replacement: string)
    requires |parts| > 0 && |target| > 0
    requires forall k :: 0 <= k < |parts| - 1 ==> NoMatchStartsIn(parts[k], target)
    requires !Contains(parts[|parts| - 1], target)
    ensures Replace(Join(parts, target), target, replacement) == Join(parts, replacement)
  {
    var p := parts[0];
    if |parts| == 1 {
      ReplaceAbsent(p, target, replacement);
    } else {
      assert NoMatchStartsIn(p, target);
      var rest := Join(parts[1..], target);
      assert Join(parts, target) == p + (target + rest);
      forall i | 0 <= i < |p|
        ensures !OccursAt(p + (target + rest), target, i)
      {
        assert !OccursAt(p + target, target, i);
        assert (p + target)[i..i + |target|] == (p + (target + rest))[i..i + |target|];
      }
      ReplaceSkipsPrefix(p, target + rest, target, replacement);
      assert (target + rest)[..|target|] == target;
      assert (target + rest)[|target|..] == rest;
      var tail := parts[1..];
      assert tail[|tail| - 1] == parts[|parts| - 1];
      assert forall k :: 0 <= k < |tail| - 1 ==> NoMatchStartsIn(tail[k], target) by {
        forall k | 0 <= k < |tail| - 1
          ensures NoMatchStartsIn(tail[k], target)
        {
          assert tail[k] == parts[k + 1];
        }
      }
      ReplaceJoin(tail, target, replacement);
      assert Join(parts, replacement) == p + (replacement + Join(parts[1..], replacement));
    }
  }
}

=== FILE: locators.dfy ===
/**
 * XPath locator templates. The templates themselves come from
 * configuration and are opaque here; the catalog and filter locators carry
 * a placeholder that `String.replace` swaps for the caller's value.
 */
module Locators {
  import opened JavaStrings

  /** The configured XPath expressions, one per element the page objects use. */
  datatype Xpaths = Xpaths(
    searchInput: string,
    searchButton: string,
    catalogButton: string,
    catalogCategory: string,
    catalogSubcategory: string,
    filterPriceMin: string,
    filterPriceMax: string,
    filterBrand: string,
    cardsOnAllPages: string,
    cardTitleAddon: string,
    cardPriceAddon: string)

  const CategoryPlaceholder: string := "*category*"
  const SubcategoryPlaceholder: string := "*subcategory*"
  const BrandPlaceholder: string := "*brand*"

  /** The locator `hoverOnCategoryInCatalog` waits for. */
  function CategoryLocator(xp: Xpaths, category: string): string {
    Replace(xp.catalogCategory, CategoryPlaceholder, category)
  }

  /** The locator `clickOnSubcategoryInCatalog` waits for. */
  function SubcategoryLocator(xp: Xpaths, subcategory: string): string {
    Replace(xp.catalogSubcategory, SubcategoryPlaceholder, subcategory)
  }

  /** The locator `clickBrandCheckbox` waits for, for one brand. */
  function BrandLocator(xp: Xpaths, brand: string): string {
    Replace(xp.filterBrand, BrandPlaceholder, brand)
  }

  /**
   * Templates written as parts joined by their placeholder, where no match
   * of the placeholder starts inside a part and the last part holds none,
   * become those parts joined by the value: every placeholder is replaced,
   * nothing else changes.
   */
  lemma SubstituteEveryPlaceholder(xp: Xpaths, categoryParts: seq<string>, subcategoryParts: seq<string>,
                                   brandParts: seq<string>, category: string, subcategory: string, brand: string)
    requires |categoryParts| > 0 && xp.catalogCategory == Join(categoryParts, CategoryPlaceholder)
    requires forall k :: 0 <= k < |categoryParts| - 1 ==> NoMatchStartsIn(categoryParts[k], CategoryPlaceholder)
    requires !Contains(categoryParts[|categoryParts| - 1], CategoryPlaceholder)
    requires |subcategoryParts| > 0 && xp.catalogSubcategory == Join(subcategoryParts, SubcategoryPlaceholder)
    requires forall k :: 0 <= k < |subcategoryParts| - 1 ==> NoMatchStartsIn(subcategoryParts[k], SubcategoryPlaceholder)
    requires !Contains(subcategoryParts[|subcategoryParts| - 1], SubcategoryPlaceholder)
    requires |brandParts| > 0 && xp.filterBrand == Join(brandParts, BrandPlaceholder)
    requires forall k :: 0 <= k < |brandParts| - 1 ==> NoMatchStartsIn(brandParts[k], BrandPlaceholder)
    requires !Contains(brandParts[|brandParts| - 1], BrandPlaceholder)
    ensures CategoryLocator(xp, category) == Join(categoryParts, category)
    ensures SubcategoryLocator(xp, subcategory) == Join(subcategoryParts, subcategory)
    ensures BrandLocator(xp, brand) == Join(brandParts, brand)
  {
    ReplaceJoin(categoryParts, CategoryPlaceholder, category);
    ReplaceJoin(subcategoryParts, SubcategoryPlaceholder, subcategory);
    ReplaceJoin(brandParts, BrandPlaceholder, brand);
  }

  /** A template without the placeholder is used as it is, whatever the value. */
  lemma TemplateWithoutPlaceholder(xp: Xpaths, category: string, subcategory: string, brand: string)
    requires !Contains(xp.catalogCategory, CategoryPlaceholder)
    requires !Contains(xp.catalogSubcategory, SubcategoryPlaceholder)
    requires !Contains(xp.filterBrand, BrandPlaceholder)
    ensures CategoryLocator(xp, category) == xp.catalogCategory
    ensures SubcategoryLocator(xp, subcategory) == xp.catalogSubcategory
    ensures BrandLocator(xp, brand) == xp.filterBrand
  {
    ReplaceAbsent(xp.catalogCategory, CategoryPlaceholder, category);
    ReplaceAbsent(xp.catalogSubcategory, SubcategoryPlaceholder, subcategory);
    ReplaceAbsent(xp.filterBrand, BrandPlaceholder, brand);
  }

  /**
   * The usual shape of a template: one placeholder between a prefix in
   * which no match of it starts and a suffix without it. The result is that
   * prefix, the value and that suffix; it holds no placeholder when none of
   * the three contains the placeholder's first character.
   */
  lemma SinglePlaceholder(prefix: string, placeholder: string, suffix: string, value: string)
    requires |placeholder| > 0
    requires NoMatchStartsIn(prefix, placeholder) && !Contains(suffix, placeholder)
    ensures Replace(prefix + placeholder + suffix, placeholder, value) == prefix + value + suffix
    ensures placeholder[0] !in prefix && placeholder[0] !in value && placeholder[0] !in suffix ==>
      !Contains(prefix + value + suffix, placeholder)
  {
    var parts := [prefix, suffix];
    assert parts[1..] == [suffix];
    assert Join(parts, placeholder) == prefix + placeholder + suffix;
    assert Join(parts, value) == prefix + value + suffix;
    ReplaceJoin(parts, placeholder, value);
    if placeholder[0] !in prefix && placeholder[0] !in value && placeholder[0] !in suffix {
      assert placeholder[0] !in prefix + value + suffix;
      FirstCharAbsent(prefix + value + suffix, placeholder);
    }
  }

  /** `hoverOnCategoryInCatalog` targets the template with the category in place of its placeholder. */
  lemma CategoryLocatorShape(xp: Xpaths, prefix: string, suffix: string, category: string)
    requires xp.catalogCategory == prefix + CategoryPlaceholder + suffix
    requires NoMatchStartsIn(prefix, CategoryPlaceholder) && !Contains(suffix, CategoryPlaceholder)
    ensures CategoryLocator(xp, category) == prefix + category + suffix
  {
    SinglePlaceholder(prefix, CategoryPlaceholder, suffix, category);
  }

  /** `clickOnSubcategoryInCatalog` targets the template with the subcategory in place of its placeholder. */
  lemma SubcategoryLocatorShape(xp: Xpaths, prefix: string, suffix: string, subcategory: string)
    requires xp.catalogSubcategory == prefix + SubcategoryPlaceholder + suffix
    requires NoMatchStartsIn(prefix, SubcategoryPlaceholder) && !Contains(suffix, SubcategoryPlaceholder)
    ensures SubcategoryLocator(xp, subcategory) == prefix + subcategory + suffix
  {
    SinglePlaceholder(prefix, SubcategoryPlaceholder, suffix, subcategory);
  }

  /** `clickBrandCheckbox` targets the template with the brand in place of its placeholder. */
  lemma BrandLocatorShape(xp: Xpaths, prefix: string, suffix: string, brand: string)
    requires xp.filterBrand == prefix + BrandPlaceholder + suffix
    requires NoMatchStartsIn(prefix, BrandPlaceholder) && !Contains(suffix, BrandPlaceholder)
    ensures BrandLocator(xp, brand) == prefix + brand + suffix
  {
    SinglePlaceholder(prefix, BrandPlaceholder, suffix, brand);
  }

  /** A template whose own XPath uses `*` before the placeholder, as in `[text()='*category*']` under any element, is substituted all the same. */
  lemma StarInTemplateExample(xp: Xpaths)
    requires xp.catalogCategory == "//*[text()='" + CategoryPlaceholder + "']"
    ensures CategoryLocator(xp, "Laptops") == "//*[text()='Laptops']"
  {
    var prefix := "//*[text()='";
    var suffix := "']";
    assert NoMatchStartsIn(prefix, CategoryPlaceholder) by {
      forall i | 0 <= i < |prefix|
        ensures !OccursAt(prefix + CategoryPlaceholder, CategoryPlaceholder, i)
      {
        var s := prefix + CategoryPlaceholder;
        if i == 2 {
          assert s[i + 1] == '[' != CategoryPlaceholder[1];
        } else {
          assert s[i] == prefix[i] != CategoryPlaceholder[0];
        }
      }
    }
    FirstCharAbsent(suffix, CategoryPlaceholder);
    CategoryLocatorShape(xp, prefix, suffix, "Laptops");
  }

  /** A suffix may end in a fragment of the placeholder: only occurrences inside the template are replaced. */
  lemma PlaceholderFragmentInSuffixExample(xp: Xpaths)
    requires xp.catalogCategory == "p" + CategoryPlaceholder + "x*category"
    ensures CategoryLocator(xp, "L") == "pLx*category"
  {
    var suffix := "x*category";
    assert !Contains(suffix, CategoryPlaceholder) by {
      assert |suffix| == |CategoryPlaceholder| && suffix[0] != CategoryPlaceholder[0];
      assert !OccursAt(suffix, CategoryPlaceholder, 0);
    }
    FirstCharAbsentNoMatch("p", CategoryPlaceholder);
    CategoryLocatorShape(xp, "p", suffix, "L");
  }
}

=== FILE: pages.dfy ===
/**
 * The page object shared by `YandexMarketPage` and `YandexMarketBasePage`:
 * construction, search, catalog navigation, filters and card listing, as
 * steps against the browser oracle. The two classes differ in three ways:
 * the price parser (see `Cards`), the product snapshot, which only
 * `YandexMarketPage` declares, and `getAllProductCardTitlesFromList`,
 * which only `YandexMarketBasePage` declares.
 */
module Pages {
  import opened JavaLang
  import opened JavaInteger
  import opened JavaStrings
  import opened Locators
  import opened WebDriver
  import opened Cards
  import opened Entity

  /** A constructed page; `productsOnPage` is the snapshot the steps fill. */
  datatype Page = Page(productsOnPage: seq<Product>)

  /**
   * The constructor: `findElement` on the search input, the search button
   * and the catalog button, in that order; the first one missing throws.
   */
  function NewPage(b: Browser, xp: Xpaths): (r: Result<Page>)
    ensures r.Ok? <==> xp.searchInput in b.present && xp.searchButton in b.present && xp.catalogButton in b.present
    ensures r.Ok? ==> r.value.productsOnPage == []
    ensures r.Throws? ==> r.exception == NoSuchElementException(
      if xp.searchInput !in b.present then xp.searchInput
      else if xp.searchButton !in b.present then xp.searchButton
      else xp.catalogButton)
  {
    if xp.searchInput !in b.present then Throws(NoSuchElementException(xp.searchInput))
    else if xp.searchButton !in b.present then Throws(NoSuchElementException(xp.searchButton))
    else if xp.catalogButton !in b.present then Throws(NoSuchElementException(xp.catalogButton))
    else Ok(Page([]))
  }

  /** `findViaSearchInput`: look the input up again, type the query, press Enter. */
  function FindViaSearchInput(b: Browser, xp: Xpaths, query: string): (r: Run)
    ensures r.failure.None? <==> xp.searchInput in b.present
    ensures r.failure.None? ==> r.trace == [SendKeys(xp.searchInput, query), PressEnter(xp.searchInput)]
    ensures r.failure.Some? ==> r.trace == [] && r.failure == Some(NoSuchElementException(xp.searchInput))
  {
    if xp.searchInput !in b.present then Run([], Some(NoSuchElementException(xp.searchInput)))
    else Run([SendKeys(xp.searchInput, query), PressEnter(xp.searchInput)], None)
  }

  /** The step of `clickOnCatalogButton`: wait for the catalog button, then click it. */
  function CatalogButtonStep(xp: Xpaths): Step {
    Step(xp.catalogButton, Click(xp.catalogButton))
  }

  /**
   * `clickOnCatalogButton` against the browser: one click on the catalog
   * button when it appears in time, a timeout naming it otherwise.
   */
  function ClickOnCatalogButton(b: Browser, xp: Xpaths): (r: Run)
    ensures xp.catalogButton in b.visible ==> r == Run([Click(xp.catalogButton)], None)
    ensures xp.catalogButton !in b.visible ==> r == Run([], Some(TimeoutException(xp.catalogButton)))
  {
    Perform(b, [CatalogButtonStep(xp)])
  }

  /**
   * `hoverOnCategoryInCatalog`: wait for the substituted locator, then hover
   * over that same element; a template without the placeholder is used as is.
   */
  function CategoryHoverStep(xp: Xpaths, category: string): (r: Step)
    ensures r.waitFor == CategoryLocator(xp, category) && r.command == Hover(r.waitFor)
    ensures !Contains(xp.catalogCategory, CategoryPlaceholder) ==> r.waitFor == xp.catalogCategory
  {
    assert !Contains(xp.catalogCategory, CategoryPlaceholder) ==> CategoryLocator(xp, category) == xp.catalogCategory by {
      if !Contains(xp.catalogCategory, CategoryPlaceholder) {
        ReplaceAbsent(xp.catalogCategory, CategoryPlaceholder, category);
      }
    }
    Step(CategoryLocator(xp, category), Hover(CategoryLocator(xp, category)))
  }

  /**
   * `clickOnSubcategoryInCatalog`: wait for the substituted locator, then
   * click that same element; a template without the placeholder is used as is.
   */
  function SubcategoryClickStep(xp: Xpaths, subcategory: string): (r: Step)
    ensures r.waitFor == SubcategoryLocator(xp, subcategory) && r.command == Click(r.waitFor)
    ensures !Contains(xp.catalogSubcategory, SubcategoryPlaceholder) ==> r.waitFor == xp.catalogSubcategory
  {
    assert !Contains(xp.catalogSubcategory, SubcategoryPlaceholder) ==>
        SubcategoryLocator(xp, subcategory) == xp.catalogSubcategory by {
      if !Contains(xp.catalogSubcategory, SubcategoryPlaceholder) {
        ReplaceAbsent(xp.catalogSubcategory, SubcategoryPlaceholder, subcategory);
      }
    }
    Step(SubcategoryLocator(xp, subcategory), Click(SubcategoryLocator(xp, subcategory)))
  }

  /** `setFilterPriceMin`: type `Integer.toString(price)` into the lower bound, a text that parses back to `price`. */
  function PriceMinStep(xp: Xpaths, price: Int32): (r: Step)
    ensures r.waitFor == xp.filterPriceMin && r.command.SendKeys? && r.command.locator == r.waitFor
    ensures ParseInt(r.command.text) == Ok(price)
  {
    ParseIntToString(price);
    Step(xp.filterPriceMin, SendKeys(xp.filterPriceMin, IntToString(price)))
  }

  /** `setFilterPriceMax`: type `Integer.toString(price)` into the upper bound, a text that parses back to `price`. */
  function PriceMaxStep(xp: Xpaths, price: Int32): (r: Step)
    ensures r.waitFor == xp.filterPriceMax && r.command.SendKeys? && r.command.locator == r.waitFor
    ensures ParseInt(r.command.text) == Ok(price)
  {
    ParseIntToString(price);
    Step(xp.filterPriceMax, SendKeys(xp.filterPriceMax, IntToString(price)))
  }

  /** The body of `clickBrandCheckbox`'s loop, once per brand. */
  function BrandCheckboxSteps(xp: Xpaths, brands: seq<string>): (r: seq<Step>)
    ensures |r| == |brands|
    ensures forall k :: 0 <= k < |brands| ==> r[k].waitFor == BrandLocator(xp, brands[k]) && r[k].command == Click(r[k].waitFor)
  {
    if |brands| == 0 then []
    else [Step(BrandLocator(xp, brands[0]), Click(BrandLocator(xp, brands[0])))] + BrandCheckboxSteps(xp, brands[1..])
  }

  /**
   * `clickBrandCheckbox`: one click per brand, in list order; the first
   * brand whose checkbox does not appear ends the loop with a timeout.
   */
  function ClickBrandCheckbox(b: Browser, xp: Xpaths, brands: seq<string>): (r: Run)
    ensures r.failure.None? <==> forall k :: 0 <= k < |brands| ==> BrandLocator(xp, brands[k]) in b.visible
    ensures |r.trace| <= |brands|
    ensures forall k :: 0 <= k < |r.trace| ==> r.trace[k] == Click(BrandLocator(xp, brands[k]))
    ensures r.failure.None? ==> |r.trace| == |brands|
    ensures r.failure.Some? ==>
      (|r.trace| < |brands| && BrandLocator(xp, brands[|r.trace|]) !in b.visible
       && r.failure == Some(TimeoutException(BrandLocator(xp, brands[|r.trace|]))))
  {
    var steps := BrandCheckboxSteps(xp, brands);
    Perform(b, steps)
  }

  /**
   * `getAllProductCardTitlesFromList`: the title of each card in turn; the
   * first card without a title element throws.
   */
  method GetAllProductCardTitlesFromList(cards: seq<Card>, xp: Xpaths) returns (r: Result<seq<string>>)
    ensures r.Ok? <==> forall k :: 0 <= k < |cards| ==> cards[k].title.Some?
    ensures r.Ok? ==> |r.value| == |cards| && forall k :: 0 <= k < |cards| ==> r.value[k] == cards[k].title.value
    ensures r.Throws? ==> r.exception == NoSuchElementException(xp.cardTitleAddon)
  {
    var titles: seq<string> := [];
    var i := 0;
    while i < |cards|
      invariant 0 <= i <= |cards|
      invariant |titles| == i
      invariant forall k :: 0 <= k < i ==> cards[k].title.Some? && titles[k] == cards[k].title.value
    {
      match ProductCardTitle(cards[i], xp)
      case Throws(e) =>
        return Throws(e);
      case Ok(title) =>
        titles := titles + [title];
        i := i + 1;
    }
    return Ok(titles);
  }
}

=== FILE: price_text.dfy ===
/**
 * The two ways the page objects turn a product card's price text into an
 * `int`: the cleaning parser of `YandexMarketPage.getProductCardPrice`,
 * which first strips whitespace and then every non-digit, and the raw
 * `Integer.parseInt` of `YandexMarketBasePage.getProductCardPrice`.
 */
module PriceText {
  import opened JavaLang
  import opened JavaStrings
  import opened JavaInteger

  /** `\s` without the UNICODE_CHARACTER_CLASS flag: space, tab, newline, vertical tab, form feed, carriage return. */
  predicate IsRegexSpace(c: char) {
    c == ' ' || c == '\t' || c == '\n' || c == '\U{B}' || c == '\U{C}' || c == '\r'
  }

  /** The first class removed: `\s`, the no-break space U+00A0, and the typographic spaces U+2006 to U+200A. */
  predicate IsPriceWhitespace(c: char) {
    IsRegexSpace(c) || c == '\U{A0}' || '\U{2006}' <= c <= '\U{200A}'
  }

  /** The two-stage cleanup: whitespace first, then every character that is not an ASCII digit. */
  function CleanPriceText(s: string): string {
    RemoveAll(RemoveAll(s, IsPriceWhitespace), IsNonDigit)
  }

  /** The ASCII digits of `s`, in their original order. */
  function Digits(s: string): string {
    RemoveAll(s, IsNonDigit)
  }

  /** Price parser of `YandexMarketPage`: `Integer.parseInt` of the cleaned text. */
  function CleanPrice(text: string): (r: Result<Int32>)
    ensures r.Ok? ==> r.value >= 0
    ensures r.Ok? <==> |Digits(text)| > 0 && DecimalValue(Digits(text)) <= MaxInt
    ensures r.Ok? ==> r.value == DecimalValue(Digits(text))
  {
    CleanPriceTextIsDigits(text);
    ParseInt(CleanPriceText(text))
  }

  /** Price parser of `YandexMarketBasePage`: `Integer.parseInt` of the text as it is. */
  function RawPrice(text: string): (r: Result<Int32>)
    ensures (exists i :: 0 <= i < |text| && IsPriceWhitespace(text[i])) ==> r.Throws?
    ensures r.Ok? ==> exists i :: 0 <= i < |text| && IsAsciiDigit(text[i])
    ensures r.Ok? ==> |text| > 0 && (IsAsciiDigit(text[0]) || IsSign(text[0]))
    ensures r.Ok? ==> forall i :: 1 <= i < |text| ==> IsAsciiDigit(text[i])
    ensures |text| > 0 && AllDigits(text) && DecimalValue(text) > MaxInt ==> r.Throws?
    ensures r.Throws? ==> r.exception == NumberFormatException(text)
  {
    ParseInt(text)
  }

  /** The whitespace stage is subsumed by the non-digit stage: the cleanup keeps exactly the digits. */
  lemma CleanPriceTextIsDigits(s: string)
    ensures CleanPriceText(s) == Digits(s)
    ensures AllDigits(CleanPriceText(s))
  {
    RemoveAllSubsumed(s, IsPriceWhitespace, IsNonDigit);
  }

  /** Applying the cleanup to its own output changes nothing. */
  lemma CleanPriceTextIdempotent(s: string)
    ensures CleanPriceText(CleanPriceText(s)) == CleanPriceText(s)
  {
    CleanPriceTextIsDigits(s);
    CleanPriceTextIsDigits(Digits(s));
    RemoveAllIdempotent(s, IsNonDigit);
  }

  /** The cleaning parser's result is determined by the digits of the text alone. */
  lemma CleanPriceDependsOnDigitsOnly(s: string, t: string)
    requires Digits(s) == Digits(t)
    ensures CleanPrice(s) == CleanPrice(t)
  {
    CleanPriceTextIsDigits(s);
    CleanPriceTextIsDigits(t);
  }

  /** Inserting any non-digit, in particular any whitespace character, anywhere does not change the price. */
  lemma CleanPriceIgnoresInsertedChar(a: string, c: char, b: string)
    requires IsNonDigit(c)
    ensures CleanPrice(a + [c] + b) == CleanPrice(a + b)
  {
    RemoveAllAppend(a + [c], b, IsNonDigit);
    RemoveAllAppend(a, [c], IsNonDigit);
    RemoveAllAppend(a, b, IsNonDigit);
    assert Digits([c]) == [] by {
      assert [c][1..] == [];
    }
    assert Digits(a + [c]) == Digits(a);
    assert Digits(a + [c] + b) == Digits(a + b);
    CleanPriceDependsOnDigitsOnly(a + [c] + b, a + b);
  }

  /** Text without any digit is an error, never a price of zero. */
  lemma CleanPriceNoDigits(s: string)
    requires forall i :: 0 <= i < |s| ==> IsNonDigit(s[i])
    ensures CleanPrice(s) == Throws(NumberFormatException(""))
  {
    RemoveAllMembers(s, IsNonDigit);
    CleanPriceTextIsDigits(s);
  }

  /** The digits of a printed `int` are the digits of its magnitude. */
  lemma DigitsOfIntToString(n: int)
    ensures Digits(IntToString(n)) == NatToString(if n < 0 then -n else n)
  {
    var magnitude: nat := if n < 0 then -n else n;
    NatToStringValue(magnitude);
    RemoveAllNothing(NatToString(magnitude), IsNonDigit);
    if n < 0 {
      RemoveAllAppend("-", NatToString(magnitude), IsNonDigit);
      assert Digits("-") == [] by {
        assert "-"[1..] == [];
      }
    }
  }

  /** A price written by `Integer.toString` is read back, with the sign stripped. */
  lemma CleanPriceOfIntToString(n: Int32)
    ensures n >= 0 ==> CleanPrice(IntToString(n)) == Ok(n)
    ensures MinInt < n < 0 ==> CleanPrice(IntToString(n)) == Ok(-n)
    ensures n == MinInt ==> CleanPrice(IntToString(n)).Throws?
  {
    var magnitude: nat := if n < 0 then -(n as int) else n;
    NatToStringValue(magnitude);
    DigitsOfIntToString(n);
    var r := CleanPrice(IntToString(n));
    assert r.Ok? <==> magnitude <= MaxInt;
  }

  /** A price with grouping space and rouble sign, as product cards show it. */
  lemma CleanPriceRoubleExample()
    ensures CleanPrice("12 345 \U{20BD}") == Ok(12345)
  {
    assert Digits("12 345 \U{20BD}") == "12345";
    SameDigitsAsPlain("12 345 \U{20BD}");
  }

  /** A price grouped with a no-break space gives the same value. */
  lemma CleanPriceNoBreakSpaceExample()
    ensures CleanPrice("12\U{A0}345") == Ok(12345)
  {
    assert Digits("12\U{A0}345") == "12345";
    SameDigitsAsPlain("12\U{A0}345");
  }

  /** Any text whose digits spell 12345 is priced 12345. */
  lemma SameDigitsAsPlain(text: string)
    requires Digits(text) == "12345"
    ensures CleanPrice(text) == Ok(12345)
  {
    RemoveAllNothing("12345", IsNonDigit);
    CleanPriceDependsOnDigitsOnly(text, "12345");
    PlainPriceExample();
  }

  /** A minus sign is stripped like any other non-digit. */
  lemma CleanPriceMinusExample()
    ensures CleanPrice("-500") == Ok(500)
  {
    assert Digits("-500") == "500";
    RemoveAllNothing("500", IsNonDigit);
    CleanPriceDependsOnDigitsOnly("-500", "500");
    assert CleanPrice("500") == Ok(500) by {
      assert NatToString(500) == "500";
      CleanPriceOfIntToString(500);
    }
  }

  /** On a bare digit string the two parsers agree. */
  lemma PlainPriceExample()
    ensures CleanPrice("12345") == Ok(12345)
    ensures RawPrice("12345") == Ok(12345)
  {
    assert IntToString(12345) == "12345";
    assert CleanPrice("12345") == Ok(12345) by {
      CleanPriceOfIntToString(12345);
    }
    ParseIntToString(12345);
  }

  /** The raw parser rejects localised price text, and anything else that is not a bare integer. */
  lemma RawPriceRejectsLocalisedText()
    ensures RawPrice("12 345 \U{20BD}").Throws?
    ensures RawPrice("12345\U{20BD}").Throws?
    ensures RawPrice("").Throws?
    ensures RawPrice("-").Throws?
  {
    assert "12 345 \U{20BD}"[2] == ' ';
    assert "12345\U{20BD}"[5] == '\U{20BD}';
  }
}

=== FILE: product.dfy ===
/**
 * The product entity: an immutable (title, price) value with structural
 * equality and the hash code `Objects.hash(title, price)` gives it, and
 * `saveProductFromElement`, which appends the product read from one card
 * to a page snapshot.
 */
module Entity {
  import opened JavaLang
  import opened Locators
  import opened WebDriver
  import opened Cards
  import opened JavaStrings
  import opened JavaInteger
  import opened PriceText

  /** A product; the datatype's fields are its getters, and nothing can change it after construction. */
  datatype Product = Product(title: string, price: Int32)

  /** `Product.equals` between two products: equal prices and equal titles. */
  predicate ProductEquals(a: Product, b: Product) {
    a.price == b.price && a.title == b.title
  }

  /** `equals` coincides with value equality, so it is reflexive, symmetric and transitive. */
  lemma ProductEqualsIsValueEquality(a: Product, b: Product)
    ensures ProductEquals(a, b) <==> a == b
    ensures ProductEquals(a, a)
    ensures ProductEquals(a, b) ==> ProductEquals(b, a)
  {
  }

  /** `String.hashCode`: `h = 31 * h + c` over the characters, in `int` arithmetic. */
  function StringHash(s: string): Int32 {
    if |s| == 0 then 0 else Wrap32(31 * StringHash(s[..|s| - 1]) + s[|s| - 1] as int)
  }

  /** The same polynomial in unbounded arithmetic. */
  function PolynomialHash(s: string): int {
    if |s| == 0 then 0 else 31 * PolynomialHash(s[..|s| - 1]) + s[|s| - 1] as int
  }

  /** Overflow at every step gives the polynomial reduced once into `int` range. */
  lemma {:induction false} StringHashIsPolynomial(s: string)
    ensures StringHash(s) == Wrap32(PolynomialHash(s))
  {
    if |s| > 0 {
      var init := s[..|s| - 1];
      StringHashIsPolynomial(init);
      Wrap32Step(PolynomialHash(init), s[|s| - 1] as int);
    }
  }

  /** `Product.hashCode`: `Objects.hash(title, price)`, i.e. `31 * (31 * 1 + title.hashCode()) + price`. */
  function HashCode(p: Product): Int32 {
    Wrap32(31 * Wrap32(31 + StringHash(p.title)) + p.price)
  }

  /** The hash is a function of title and price only: it is the base-31 polynomial 1, title, price, reduced into `int`. */
  lemma HashCodeIsPolynomial(p: Product)
    ensures HashCode(p) == Wrap32(31 * 31 + 31 * PolynomialHash(p.title) + p.price)
  {
    StringHashIsPolynomial(p.title);
    Wrap32Step(31 + StringHash(p.title), p.price);
    Wrap32Step(PolynomialHash(p.title), 31 * 31 + p.price);
  }

  /** Products that are `equals` have equal hash codes. */
  lemma HashCodeConsistentWithEquals(a: Product, b: Product)
    requires ProductEquals(a, b)
    ensures HashCode(a) == HashCode(b)
  {
  }

  lemma HashCodeExamples()
    ensures HashCode(Product("", 0)) == 961
    ensures HashCode(Product("HP", 1)) == 72634
  {
    assert StringHash("H") == 72;
    assert StringHash("HP") == 2312;
  }

  /**
   * The product one card describes, read with the given page class's
   * parser: its title is read first, then its price.
   */
  function ProductFromCard(card: Card, xp: Xpaths, parser: PriceParser): (r: Result<Product>)
    ensures r.Ok? <==> card.title.Some? && CardPrice(card, xp, parser).Ok?
    ensures r.Ok? ==> r.value.title == card.title.value && r.value.price == CardPrice(card, xp, parser).value
    ensures r.Throws? ==>
      r.exception == (if card.title.None? then NoSuchElementException(xp.cardTitleAddon)
                      else CardPrice(card, xp, parser).exception)
    ensures parser == Cleaning && r.Ok? ==> r.value.price >= 0
  {
    match ProductCardTitle(card, xp)
    case Throws(e) => Throws(e)
    case Ok(title) =>
      match CardPrice(card, xp, parser)
      case Throws(e) => Throws(e)
      case Ok(price) => Ok(Product(title, price))
  }

  /**
   * As written, a titled card whose price text holds whitespace throws
   * `NumberFormatException`; the cleaning parser reads the same card as the
   * value of its digits whenever there are some and they fit an `int`.
   */
  lemma RawProductRejectsSpacedPrice(card: Card, xp: Xpaths)
    requires card.title.Some? && HasSpacedPrice(card)
    ensures ProductFromCard(card, xp, Raw) == Throws(NumberFormatException(card.priceText.value))
    ensures ProductFromCard(card, xp, Cleaning) != ProductFromCard(card, xp, Raw)
    ensures var digits := Digits(card.priceText.value);
      |digits| > 0 && DecimalValue(digits) <= MaxInt ==>
        ProductFromCard(card, xp, Cleaning) == Ok(Product(card.title.value, DecimalValue(digits)))
  {
  }

  /** The raw parser keeps a minus sign that the cleaning parser strips. */
  lemma RawProductKeepsSign(xp: Xpaths)
    ensures ProductFromCard(Card(Some("HP"), Some("-500")), xp, Raw) == Ok(Product("HP", -500))
    ensures ProductFromCard(Card(Some("HP"), Some("-500")), xp, Cleaning) == Ok(Product("HP", 500))
  {
    var text := "-500";
    assert text[1..] == "500";
    assert DecimalValue("500") == 500 by {
      assert "500"[..2] == "50" && "50"[..1] == "5" && "5"[..0] == "";
    }
    assert Digits(text) == "500" by {
      assert text == "-" + "500";
      RemoveAllAppend("-", "500", IsNonDigit);
      assert "-"[1..] == [];
      RemoveAllNothing("500", IsNonDigit);
    }
  }

  /**
   * `saveProductFromElement`: append the card's product to the snapshot;
   * earlier entries are left as they are.
   */
  function SaveProductFromElement(snapshot: seq<Product>, card: Card, xp: Xpaths, parser: PriceParser): (r: Result<seq<Product>>)
    ensures r.Ok? <==> ProductFromCard(card, xp, parser).Ok?
    ensures r.Ok? ==>
      (|r.value| == |snapshot| + 1 && r.value[..|snapshot|] == snapshot
       && r.value[|snapshot|] == ProductFromCard(card, xp, parser).value)
    ensures r.Throws? ==> r.exception == ProductFromCard(card, xp, parser).exception
  {
    match ProductFromCard(card, xp, parser)
    case Throws(e) => Throws(e)
    case Ok(p) => Ok(snapshot + [p])
  }
}

=== FILE: scroller.dfy ===
/**
 * The two bounded scroll loops of `Scroller`. Each iteration requests a
 * screenshot, scrolls by a fixed amount, waits (timing is not modelled)
 * and then observes the page; the observation decides whether to stop.
 * The browser's answers are given as a function from iteration number to
 * observation.
 */
module Scroller {
  import opened JavaLang
  import opened WebDriver

  const DownStep: int := 600
  const DownMaxSteps: nat := 20
  const UpStep: int := 1000
  const UpMaxSteps: nat := 50

  /** What `scrollToBottomOfPage` reads after a scroll: `pageYOffset`, `innerHeight`, `scrollHeight`. */
  datatype PageMetrics = PageMetrics(offset: Int64, windowHeight: Int64, docHeight: Int64)

  /** The bottom test, with the `long` addition wrapping as Java's does. */
  predicate ReachedBottom(m: PageMetrics) {
    Wrap64(m.offset + m.windowHeight) >= m.docHeight
  }

  /** How many iterations ran, and the commands they issued. */
  datatype ScrollRun = ScrollRun(iterations: nat, trace: seq<Command>)

  /** A screenshot then a scroll by `dy`, `n` times over. */
  predicate IsStepTrace(trace: seq<Command>, dy: int, n: nat) {
    && |trace| == 2 * n
    && forall k :: 0 <= k < |trace| ==> trace[k] == (if k % 2 == 0 then Screenshot else ScrollBy(dy))
  }

  /**
   * The loop from iteration `i` on: at most `maxSteps` iterations in all,
   * stopping after the first iteration whose observation says stop.
   */
  function ScrollLoop(stop: nat -> bool, maxSteps: nat, dy: int, i: nat): (r: ScrollRun)
    requires i <= maxSteps
    decreases maxSteps - i
    ensures i <= r.iterations <= maxSteps
    ensures i < maxSteps ==> i < r.iterations
    ensures IsStepTrace(r.trace, dy, r.iterations - i)
    ensures forall j :: i <= j < r.iterations - 1 ==> !stop(j)
    ensures i < r.iterations < maxSteps ==> stop(r.iterations - 1)
  {
    if i == maxSteps then ScrollRun(i, [])
    else if stop(i) then ScrollRun(i + 1, [Screenshot, ScrollBy(dy)])
    else
      var rest := ScrollLoop(stop, maxSteps, dy, i + 1);
      ScrollRun(rest.iterations, [Screenshot, ScrollBy(dy)] + rest.trace)
  }

  /**
   * `scrollToBottomOfPage`: between one and 20 iterations of +600, ending
   * at the first observation that reports the bottom, or after the 20th.
   */
  function ScrollToBottomOfPage(observe: nat -> PageMetrics): (r: ScrollRun)
    ensures 1 <= r.iterations <= DownMaxSteps
    ensures IsStepTrace(r.trace, DownStep, r.iterations)
    ensures forall j :: 0 <= j < r.iterations - 1 ==> !ReachedBottom(observe(j))
    ensures r.iterations < DownMaxSteps ==> ReachedBottom(observe(r.iterations - 1))
  {
    var stop := (j: nat) => ReachedBottom(observe(j));
    assert forall j: nat :: stop(j) == ReachedBottom(observe(j));
    ScrollLoop(stop, DownMaxSteps, DownStep, 0)
  }

  /**
   * `scrollToTopOfPage`: between one and 50 iterations of -1000, ending at
   * the first observed offset that is not positive, or after the 50th.
   */
  function ScrollToTopOfPage(observeOffset: nat -> Int64): (r: ScrollRun)
    ensures 1 <= r.iterations <= UpMaxSteps
    ensures IsStepTrace(r.trace, -UpStep, r.iterations)
    ensures forall j :: 0 <= j < r.iterations - 1 ==> observeOffset(j) > 0
    ensures r.iterations < UpMaxSteps ==> observeOffset(r.iterations - 1) <= 0
  {
    var stop := (j: nat) => observeOffset(j) <= 0;
    assert forall j: nat :: stop(j) == (observeOffset(j) <= 0);
    ScrollLoop(stop, UpMaxSteps, -UpStep, 0)
  }

  /** A page that never reports its bottom, such as an endless feed, is scrolled exactly 20 times. */
  lemma EndlessPageStopsAtCap(observe: nat -> PageMetrics)
    requires forall j :: 0 <= j < DownMaxSteps ==> !ReachedBottom(observe(j))
    ensures ScrollToBottomOfPage(observe).iterations == DownMaxSteps
  {
  }

  /** A page already at the bottom is still scrolled once: the test follows the scroll. */
  lemma ShortPageScrollsOnce(observe: nat -> PageMetrics)
    requires ReachedBottom(observe(0))
    ensures ScrollToBottomOfPage(observe).iterations == 1
    ensures ScrollToBottomOfPage(observe).trace == [Screenshot, ScrollBy(DownStep)]
  {
  }

  /** For metrics of realistic size the wrap-around never matters. */
  lemma ReachedBottomWithoutOverflow(m: PageMetrics)
    requires 0 <= m.offset < 0x4000_0000_0000_0000 && 0 <= m.windowHeight < 0x4000_0000_0000_0000
    ensures ReachedBottom(m) <==> m.offset + m.windowHeight >= m.docHeight
  {
  }

  /** At the very end of the `long` range the sum wraps negative and the bottom is missed. */
  lemma ReachedBottomOverflow()
    ensures !ReachedBottom(PageMetrics(MaxLong, 1, 0))
  {
  }
}

=== FILE: soft_checker.dfy ===
/**
 * The four soft checks and JUnit's `assertAll`, which runs every check
 * whatever the earlier ones did and then reports all failures together.
 */
module SoftChecker {
  import opened JavaLang
  import opened Entity

  /**
   * A failed assertion, with what its message names; `checkProductFound`
   * asserts without a message, so its failure names nothing.
   */
  datatype Failure =
    | ProductNotFound
    | PriceFilterViolated(wrongTitles: seq<string>)
    | BrandFilterViolated(wrongTitles: seq<string>)
    | TooFewProducts(actual: int)
    | TooFewCards(cards: int, threshold: int)
    | PageTitleMismatch(title: string, subcategory: string)

  /** One `assertTrue`: it passes or it fails with a message. */
  datatype CheckResult = Pass | Fail(failure: Failure)

  /** What `assertAll` ends with: normal completion, or one error carrying every failure in order. */
  datatype Outcome = Passed | Failed(failures: seq<Failure>)

  /**
   * `checkProductFound`: passes exactly when the caller's condition holds;
   * the expected product only names the report step, not the failure.
   */
  function CheckProductFound(condition: bool, expected: Product): (r: CheckResult)
    ensures r.Pass? <==> condition
    ensures r.Fail? ==> r.failure == ProductNotFound
  {
    if condition then Pass else Fail(ProductNotFound)
  }

  /** `checkPriceFilter`: passes exactly when no title was flagged; the bounds only decorate the report. */
  function CheckPriceFilter(wrongTitles: seq<string>, minPrice: Int32, maxPrice: Int32): (r: CheckResult)
    ensures r.Pass? <==> |wrongTitles| == 0
    ensures r.Fail? ==> r.failure == PriceFilterViolated(wrongTitles)
  {
    if |wrongTitles| == 0 then Pass else Fail(PriceFilterViolated(wrongTitles))
  }

  /** `checkBrandFilter`: passes exactly when no title was flagged, and a failure lists the flagged titles. */
  function CheckBrandFilter(wrongTitles: seq<string>, brands: seq<string>): (r: CheckResult)
    ensures r.Pass? <==> |wrongTitles| == 0
    ensures r.Fail? ==> r.failure == BrandFilterViolated(wrongTitles)
  {
    if |wrongTitles| == 0 then Pass else Fail(BrandFilterViolated(wrongTitles))
  }

  /** `checkProductsCount`: passes exactly when strictly more products than expected were found. */
  function CheckProductsCount(actual: int, expected: Int32): (r: CheckResult)
    ensures r.Pass? <==> actual > expected
    ensures r.Fail? ==> r.failure == TooFewProducts(actual)
  {
    if actual > expected then Pass else Fail(TooFewProducts(actual))
  }

  /** The price bounds passed to `checkPriceFilter` never change its verdict. */
  lemma PriceFilterIgnoresBounds(wrongTitles: seq<string>, min1: Int32, max1: Int32, min2: Int32, max2: Int32)
    ensures CheckPriceFilter(wrongTitles, min1, max1) == CheckPriceFilter(wrongTitles, min2, max2)
  {
  }

  /** The count check is strict: finding exactly the expected number fails, one more passes. */
  lemma ProductsCountIsStrict(expected: Int32)
    ensures CheckProductsCount(expected, expected) == Fail(TooFewProducts(expected))
    ensures CheckProductsCount(expected + 1, expected) == Pass
  {
  }

  /** The failures of the checks that failed, in the order the checks were given. */
  function Failures(checks: seq<CheckResult>): (r: seq<Failure>)
    ensures |r| <= |checks|
  {
    if |checks| == 0 then []
    else (if checks[0].Fail? then [checks[0].failure] else []) + Failures(checks[1..])
  }

  /** A failure is reported exactly when some check failed with it. */
  lemma {:induction false} FailuresMembers(checks: seq<CheckResult>)
    ensures forall f :: f in Failures(checks) <==> exists i :: 0 <= i < |checks| && checks[i] == Fail(f)
  {
    if |checks| > 0 {
      FailuresMembers(checks[1..]);
      forall f | f in Failures(checks)
        ensures exists i :: 0 <= i < |checks| && checks[i] == Fail(f)
      {
        if !(checks[0] == Fail(f)) {
          var i :| 0 <= i < |checks[1..]| && checks[1..][i] == Fail(f);
          assert checks[i + 1] == Fail(f);
        }
      }
      forall f, i | 0 <= i < |checks| && checks[i] == Fail(f)
        ensures f in Failures(checks)
      {
        if i > 0 {
          assert checks[1..][i - 1] == Fail(f);
        }
      }
    }
  }

  /** No failure is reported exactly when every check passed. */
  lemma {:induction false} FailuresEmpty(checks: seq<CheckResult>)
    ensures |Failures(checks)| == 0 <==> forall i :: 0 <= i < |checks| ==> checks[i].Pass?
  {
    if |checks| > 0 {
      FailuresEmpty(checks[1..]);
      if forall i :: 0 <= i < |checks| ==> checks[i].Pass? {
        assert forall i :: 0 <= i < |checks[1..]| ==> checks[1..][i] == checks[i + 1];
      } else if checks[0].Pass? {
        var i :| 0 <= i < |checks| && !checks[i].Pass?;
        assert !checks[1..][i - 1].Pass?;
      }
    }
  }

  /**
   * `assertAll`: every check has already run; the outcome passes exactly
   * when all of them passed, and otherwise reports each failure.
   */
  function AssertAll(checks: seq<CheckResult>): (r: Outcome)
    ensures r.Passed? <==> forall i :: 0 <= i < |checks| ==> checks[i].Pass?
    ensures r.Failed? ==> r.failures == Failures(checks) && |r.failures| > 0
    ensures r.Failed? ==> forall i :: 0 <= i < |checks| && checks[i].Fail? ==> checks[i].failure in r.failures
  {
    FailuresEmpty(checks);
    FailuresMembers(checks);
    if |Failures(checks)| == 0 then Passed else Failed(Failures(checks))
  }
}

=== FILE: steps.dfy ===
/**
 * `YandexMarketSteps`: the scenario steps built from the page object,
 * the scroller and the soft checks. The heart is `runChecksSoftly`, which
 * classifies the snapshot taken before the search, looks the checked
 * product up in the snapshot taken after it, and hands four verdicts to
 * `assertAll`.
 */
module Steps {
  import opened JavaLang
  import opened JavaStrings
  import opened JavaInteger
  import opened Locators
  import opened WebDriver
  import opened Cards
  import opened Entity
  import opened Scroller
  import opened SoftChecker
  import opened Pages

  // ---------------------------------------------------------------- navigation

  /** The commands `chooseCategory` issues when every element appears. */
  function ChooseCategoryCommands(xp: Xpaths, category: string, subcategory: string): seq<Command> {
    [Click(xp.catalogButton), Hover(CategoryLocator(xp, category)), Click(SubcategoryLocator(xp, subcategory))]
  }

  /** The elements `chooseCategory` waits for, in order. */
  function ChooseCategoryLocators(xp: Xpaths, category: string, subcategory: string): seq<string> {
    [xp.catalogButton, CategoryLocator(xp, category), SubcategoryLocator(xp, subcategory)]
  }

  /**
   * `chooseCategory`: catalog click, category hover, subcategory click, in
   * that order. The first element that does not appear ends the run with a
   * timeout naming it, after the commands for the elements before it.
   */
  function ChooseCategory(b: Browser, xp: Xpaths, category: string, subcategory: string): (r: Run)
    ensures r.trace <= ChooseCategoryCommands(xp, category, subcategory)
    ensures r.failure.None? <==>
      (xp.catalogButton in b.visible && CategoryLocator(xp, category) in b.visible
       && SubcategoryLocator(xp, subcategory) in b.visible)
    ensures r.failure.None? ==> r.trace == ChooseCategoryCommands(xp, category, subcategory)
    ensures r.failure.Some? ==>
      var locators := ChooseCategoryLocators(xp, category, subcategory);
      && |r.trace| < 3
      && (forall k :: 0 <= k < |r.trace| ==> locators[k] in b.visible)
      && locators[|r.trace|] !in b.visible
      && r.failure == Some(TimeoutException(locators[|r.trace|]))
  {
    var steps := [CatalogButtonStep(xp), CategoryHoverStep(xp, category), SubcategoryClickStep(xp, subcategory)];
    assert Commands(steps) == ChooseCategoryCommands(xp, category, subcategory);
    assert steps[0].waitFor == xp.catalogButton && steps[1].waitFor == CategoryLocator(xp, category)
        && steps[2].waitFor == SubcategoryLocator(xp, subcategory);
    Perform(b, steps)
  }

  /** The price half of `setFilters`. */
  function PriceFilterSteps(xp: Xpaths, minPrice: Int32, maxPrice: Int32): seq<Step> {
    [PriceMinStep(xp, minPrice), PriceMaxStep(xp, maxPrice)]
  }

  /**
   * `setFilters`: the lower bound is typed, then the upper bound, then one
   * brand checkbox is clicked per brand in list order.
   */
  function SetFilters(b: Browser, xp: Xpaths, minPrice: Int32, maxPrice: Int32, brands: seq<string>): (r: Run)
    ensures r.failure.None? ==>
      (&& |r.trace| == 2 + |brands|
       && r.trace[0] == SendKeys(xp.filterPriceMin, IntToString(minPrice))
       && r.trace[1] == SendKeys(xp.filterPriceMax, IntToString(maxPrice))
       && forall k :: 0 <= k < |brands| ==> r.trace[2 + k] == Click(BrandLocator(xp, brands[k])))
    ensures r.failure.None? <==>
      (&& xp.filterPriceMin in b.visible && xp.filterPriceMax in b.visible
       && forall k :: 0 <= k < |brands| ==> BrandLocator(xp, brands[k]) in b.visible)
  {
    var steps := PriceFilterSteps(xp, minPrice, maxPrice) + BrandCheckboxSteps(xp, brands);
    var r := Perform(b, steps);
    assert forall k :: 0 <= k < |brands| ==> steps[2 + k] == BrandCheckboxSteps(xp, brands)[k];
    r
  }

  /** `setFilters` is the two price steps followed by `clickBrandCheckbox`. */
  lemma SetFiltersIsSequential(b: Browser, xp: Xpaths, minPrice: Int32, maxPrice: Int32, brands: seq<string>)
    ensures SetFilters(b, xp, minPrice, maxPrice, brands)
         == Then(Perform(b, PriceFilterSteps(xp, minPrice, maxPrice)), ClickBrandCheckbox(b, xp, brands))
  {
    PerformAppend(b, PriceFilterSteps(xp, minPrice, maxPrice), BrandCheckboxSteps(xp, brands));
  }

  /** The text typed into each price field reads back as the bound it came from. */
  lemma TypedPricesParseBack(b: Browser, xp: Xpaths, minPrice: Int32, maxPrice: Int32, brands: seq<string>)
    requires SetFilters(b, xp, minPrice, maxPrice, brands).failure.None?
    ensures ParseInt(SetFilters(b, xp, minPrice, maxPrice, brands).trace[0].text) == Ok(minPrice)
    ensures ParseInt(SetFilters(b, xp, minPrice, maxPrice, brands).trace[1].text) == Ok(maxPrice)
  {
    ParseIntToString(minPrice);
    ParseIntToString(maxPrice);
  }

  /**
   * `goBySearchQuery`: scroll to the top, then search. The scroll always
   * happens; the search throws when the input cannot be found.
   */
  function GoBySearchQuery(b: Browser, xp: Xpaths, observeOffset: nat -> Int64, query: string): (r: Run)
    ensures ScrollToTopOfPage(observeOffset).trace <= r.trace
    ensures r.failure.None? <==> xp.searchInput in b.present
    ensures r.failure.None? ==>
      r.trace[|ScrollToTopOfPage(observeOffset).trace|..] == [SendKeys(xp.searchInput, query), PressEnter(xp.searchInput)]
    ensures r.failure.Some? ==>
      r.trace == ScrollToTopOfPage(observeOffset).trace && r.failure == Some(NoSuchElementException(xp.searchInput))
  {
    Then(Run(ScrollToTopOfPage(observeOffset).trace, None), FindViaSearchInput(b, xp, query))
  }

  // ---------------------------------------------------------------- scraping

  /** Every card up to `n` reads as a product. */
  predicate ReadableUpTo(cards: seq<Card>, xp: Xpaths, parser: PriceParser, n: nat)
    requires n <= |cards|
  {
    forall k :: 0 <= k < n ==> ProductFromCard(cards[k], xp, parser).Ok?
  }

  /** As written, one titled card whose price text holds whitespace makes the whole list unreadable. */
  lemma RawCollectionRejectsSpacedPrice(cards: seq<Card>, xp: Xpaths, k: nat)
    requires k < |cards| && cards[k].title.Some? && HasSpacedPrice(cards[k])
    ensures !ReadableUpTo(cards, xp, Raw, |cards|)
  {
    RawProductRejectsSpacedPrice(cards[k], xp);
  }

  /**
   * The loop of `getAllProductCards`: `saveProductFromElement` for each
   * card in order, so the snapshot grows by one product per card and its
   * earlier entries stay. The first card that cannot be read throws, with
   * that card's exception.
   */
  method SaveAll(snapshot: seq<Product>, cards: seq<Card>, xp: Xpaths, parser: PriceParser)
    returns (r: Result<seq<Product>>)
    ensures r.Ok? <==> ReadableUpTo(cards, xp, parser, |cards|)
    ensures r.Ok? ==>
      (&& |r.value| == |snapshot| + |cards|
       && r.value[..|snapshot|] == snapshot
       && forall k :: 0 <= k < |cards| ==> ProductFromCard(cards[k], xp, parser) == Ok(r.value[|snapshot| + k]))
    ensures r.Throws? ==>
      exists k :: 0 <= k < |cards| && ReadableUpTo(cards, xp, parser, k)
                  && ProductFromCard(cards[k], xp, parser) == Throws(r.exception)
  {
    var current := snapshot;
    for i := 0 to |cards|
      invariant |current| == |snapshot| + i
      invariant current[..|snapshot|] == snapshot
      invariant forall k :: 0 <= k < i ==> ProductFromCard(cards[k], xp, parser) == Ok(current[|snapshot| + k])
    {
      var saved := SaveProductFromElement(current, cards[i], xp, parser);
      if saved.Throws? {
        assert ReadableUpTo(cards, xp, parser, i) && ProductFromCard(cards[i], xp, parser) == Throws(saved.exception);
        return Throws(saved.exception);
      }
      assert ProductFromCard(cards[i], xp, parser) == Ok(saved.value[|current|]);
      assert saved.value[..|current|] == current;
      current := saved.value;
    }
    assert ReadableUpTo(cards, xp, parser, |cards|);
    return Ok(current);
  }

  /** What `getAllProductCards` did: the commands of the two scroll loops, and the snapshot afterwards. */
  datatype Collected = Collected(trace: seq<Command>, snapshot: Result<seq<Product>>)

  /**
   * `getAllProductCards`: scroll down to the bottom, back up to the top,
   * then save one product per card, in card order. The cards are what
   * `getAllProductCardsOnPage` returns: `findElements`, which never throws
   * and may find none, gives every rendered card. The suite passes a
   * `YandexMarketBasePage`, whose parser is `Raw`; with it, one titled
   * card whose price text holds whitespace makes the collection throw.
   */
  method GetAllProductCards(b: Browser, xp: Xpaths, parser: PriceParser, observeDown: nat -> PageMetrics,
                            observeUp: nat -> Int64, snapshot: seq<Product>) returns (r: Collected)
    ensures var down := ScrollToBottomOfPage(observeDown).iterations;
      && |r.trace| == 2 * down + 2 * ScrollToTopOfPage(observeUp).iterations
      && IsStepTrace(r.trace[..2 * down], DownStep, down)
      && IsStepTrace(r.trace[2 * down..], -UpStep, ScrollToTopOfPage(observeUp).iterations)
    ensures r.snapshot.Ok? <==> ReadableUpTo(b.cards, xp, parser, |b.cards|)
    ensures r.snapshot.Ok? ==>
      (&& |r.snapshot.value| == |snapshot| + |b.cards|
       && r.snapshot.value[..|snapshot|] == snapshot
       && forall k :: 0 <= k < |b.cards| ==> ProductFromCard(b.cards[k], xp, parser) == Ok(r.snapshot.value[|snapshot| + k]))
    ensures parser == Raw && (exists k :: 0 <= k < |b.cards| && b.cards[k].title.Some? && HasSpacedPrice(b.cards[k])) ==>
      r.snapshot.Throws?
  {
    var downRun := ScrollToBottomOfPage(observeDown);
    var upRun := ScrollToTopOfPage(observeUp);
    var trace := downRun.trace + upRun.trace;
    assert trace[..2 * downRun.iterations] == downRun.trace;
    assert trace[2 * downRun.iterations..] == upRun.trace;
    var saved := SaveAll(snapshot, b.cards, xp, parser);
    if parser == Raw && exists k :: 0 <= k < |b.cards| && b.cards[k].title.Some? && HasSpacedPrice(b.cards[k]) {
      var k :| 0 <= k < |b.cards| && b.cards[k].title.Some? && HasSpacedPrice(b.cards[k]);
      RawCollectionRejectsSpacedPrice(b.cards, xp, k);
    }
    r := Collected(trace, saved);
  }

  // ---------------------------------------------------------------- classification

  /** `brands.stream().anyMatch(brand -> title.contains(brand))`: case-sensitive. */
  predicate MatchesAnyBrand(title: string, brands: seq<string>) {
    exists k :: 0 <= k < |brands| && Contains(title, brands[k])
  }

  /** The two conditions the loop of `runChecksSoftly` flags a product for. */
  datatype Rule = PriceOutside(minPrice: Int32, maxPrice: Int32) | NoBrandIn(brands: seq<string>)

  predicate Flags(rule: Rule, p: Product) {
    match rule
    case PriceOutside(lo, hi) => p.price < lo || p.price > hi
    case NoBrandIn(brands) => !MatchesAnyBrand(p.title, brands) && |p.title| > 0
  }

  /** The titles of the flagged products, in snapshot order. */
  function Violators(ps: seq<Product>, rule: Rule): (r: seq<string>)
    ensures |r| <= |ps|
  {
    if |ps| == 0 then []
    else Violators(ps[..|ps| - 1], rule) + (if Flags(rule, ps[|ps| - 1]) then [ps[|ps| - 1].title] else [])
  }

  function PriceViolators(ps: seq<Product>, minPrice: Int32, maxPrice: Int32): seq<string> {
    Violators(ps, PriceOutside(minPrice, maxPrice))
  }

  function BrandViolators(ps: seq<Product>, brands: seq<string>): seq<string> {
    Violators(ps, NoBrandIn(brands))
  }

  /** A title is listed exactly when some flagged product carries it. */
  lemma {:induction false} ViolatorsMembers(ps: seq<Product>, rule: Rule)
    ensures forall t :: t in Violators(ps, rule) <==> exists i :: 0 <= i < |ps| && Flags(rule, ps[i]) && ps[i].title == t
  {
    if |ps| > 0 {
      var init := ps[..|ps| - 1];
      ViolatorsMembers(init, rule);
      assert forall i :: 0 <= i < |init| ==> init[i] == ps[i];
    }
  }

  /** Nothing is listed exactly when no product is flagged. */
  lemma {:induction false} ViolatorsEmpty(ps: seq<Product>, rule: Rule)
    ensures |Violators(ps, rule)| == 0 <==> forall i :: 0 <= i < |ps| ==> !Flags(rule, ps[i])
  {
    if |ps| > 0 {
      var init := ps[..|ps| - 1];
      ViolatorsEmpty(init, rule);
      assert forall i :: 0 <= i < |init| ==> init[i] == ps[i];
    }
  }

  /** Classifying a snapshot in two parts lists the first part's titles first. */
  lemma {:induction false} ViolatorsAppend(a: seq<Product>, b: seq<Product>, rule: Rule)
    ensures Violators(a + b, rule) == Violators(a, rule) + Violators(b, rule)
    decreases |b|
  {
    if |b| == 0 {
      assert a + b == a;
    } else {
      var init := b[..|b| - 1];
      assert (a + b)[..|a + b| - 1] == a + init;
      assert (a + b)[|a + b| - 1] == b[|b| - 1];
      ViolatorsAppend(a, init, rule);
    }
  }

  /** Prices equal to a bound pass; the price filter flags exactly the products outside `[min, max]`. */
  lemma PriceViolatorsEmptyIff(ps: seq<Product>, minPrice: Int32, maxPrice: Int32)
    ensures |PriceViolators(ps, minPrice, maxPrice)| == 0
        <==> forall i :: 0 <= i < |ps| ==> minPrice <= ps[i].price <= maxPrice
  {
    ViolatorsEmpty(ps, PriceOutside(minPrice, maxPrice));
  }

  /** With no brands to match, every product with a non-empty title is flagged. */
  lemma EmptyBrandListFlagsEveryNamedProduct(ps: seq<Product>)
    ensures forall t :: t in BrandViolators(ps, []) <==> exists i :: 0 <= i < |ps| && ps[i].title == t && |t| > 0
  {
    ViolatorsMembers(ps, NoBrandIn([]));
  }

  /** Products with an empty title never fail the brand check. */
  lemma EmptyTitlesNeverFlagged(ps: seq<Product>, brands: seq<string>)
    requires forall i :: 0 <= i < |ps| ==> |ps[i].title| == 0
    ensures BrandViolators(ps, brands) == []
  {
    ViolatorsEmpty(ps, NoBrandIn(brands));
  }

  /** The brand check compares case-sensitively: a lower-case brand name in the title does not count. */
  lemma BrandCheckIsCaseSensitive()
    ensures BrandViolators([Product("lenovo ThinkPad", 50000)], ["Lenovo", "HP"]) == ["lenovo ThinkPad"]
  {
    var title := "lenovo ThinkPad";
    FirstCharAbsent(title, "Lenovo");
    FirstCharAbsent(title, "HP");
    var brands := ["Lenovo", "HP"];
    assert !MatchesAnyBrand(title, brands);
    var ps := [Product(title, 50000)];
    assert ps[..0] == [];
  }

  /**
   * The loop of `runChecksSoftly`: one pass over the snapshot, appending
   * each product's title to the price list, the brand list, or both.
   */
  method ClassifySnapshot(ps: seq<Product>, minPrice: Int32, maxPrice: Int32, brands: seq<string>)
    returns (wrongPrice: seq<string>, wrongBrand: seq<string>)
    ensures wrongPrice == PriceViolators(ps, minPrice, maxPrice)
    ensures wrongBrand == BrandViolators(ps, brands)
  {
    wrongPrice := [];
    wrongBrand := [];
    for i := 0 to |ps|
      invariant wrongPrice == PriceViolators(ps[..i], minPrice, maxPrice)
      invariant wrongBrand == BrandViolators(ps[..i], brands)
    {
      var product := ps[i];
      if product.price < minPrice || product.price > maxPrice {
        wrongPrice := wrongPrice + [product.title];
      }
      if !MatchesAnyBrand(product.title, brands) && |product.title| > 0 {
        wrongBrand := wrongBrand + [product.title];
      }
      assert ps[..i + 1][..i] == ps[..i];
    }
    assert ps[..|ps|] == ps;
  }

  // ---------------------------------------------------------------- verdict

  /** `productsOnPage.get(indexOfCheckedElement)`. */
  function CheckedProduct(before: seq<Product>, index: Int32): (r: Result<Product>)
    ensures r.Ok? <==> 0 <= index < |before|
    ensures r.Ok? ==> r.value == before[index]
    ensures r.Throws? ==> r.exception == IndexOutOfBoundsException(index, |before|)
  {
    if 0 <= index < |before| then Ok(before[index]) else Throws(IndexOutOfBoundsException(index, |before|))
  }

  /** `after.stream().anyMatch(p -> p.equals(checked))`. */
  function IsFound(after: seq<Product>, checked: Product): bool {
    |after| > 0 && (ProductEquals(after[0], checked) || IsFound(after[1..], checked))
  }

  /** The product is found exactly when an entry with the same title and the same price is present. */
  lemma {:induction false} IsFoundIffPresent(after: seq<Product>, checked: Product)
    ensures IsFound(after, checked) <==>
      exists i :: 0 <= i < |after| && after[i].title == checked.title && after[i].price == checked.price
    ensures IsFound(after, checked) <==> checked in after
  {
    if |after| > 0 {
      IsFoundIffPresent(after[1..], checked);
      assert forall i :: 1 <= i < |after| ==> after[i] == after[1..][i - 1];
      assert after == [after[0]] + after[1..];
    }
  }

  /** The four checks in the order `runChecksSoftly` gives them to `assertAll`. */
  function SoftChecks(before: seq<Product>, after: seq<Product>, checked: Product, checkedAmount: Int32,
                      minPrice: Int32, maxPrice: Int32, brands: seq<string>): seq<CheckResult>
  {
    [ CheckProductFound(IsFound(after, checked), checked),
      CheckPriceFilter(PriceViolators(before, minPrice, maxPrice), minPrice, maxPrice),
      CheckBrandFilter(BrandViolators(before, brands), brands),
      CheckProductsCount(|before|, checkedAmount) ]
  }

  /** The test's intent, stated directly over the snapshots. */
  predicate AllChecksHold(before: seq<Product>, after: seq<Product>, index: Int32, checkedAmount: Int32,
                          minPrice: Int32, maxPrice: Int32, brands: seq<string>)
    requires 0 <= index < |before|
  {
    && before[index] in after
    && (forall i :: 0 <= i < |before| ==> minPrice <= before[i].price <= maxPrice)
    && (forall i :: 0 <= i < |before| ==> |before[i].title| == 0 || MatchesAnyBrand(before[i].title, brands))
    && |before| > checkedAmount
  }

  /**
   * `runChecksSoftly`. A bad index throws before any check runs; otherwise
   * the run passes exactly when the checked product is found after the
   * search, every price lies within the bounds, every named product
   * matches a brand, and more products than required were collected.
   */
  function RunChecksSoftly(before: seq<Product>, after: seq<Product>, checkedAmount: Int32,
                           minPrice: Int32, maxPrice: Int32, brands: seq<string>, index: Int32): (r: Result<Outcome>)
    ensures r.Throws? <==> !(0 <= index < |before|)
    ensures r.Throws? ==> r.exception == IndexOutOfBoundsException(index, |before|)
    ensures r.Ok? ==>
      (r.value.Passed? <==> AllChecksHold(before, after, index, checkedAmount, minPrice, maxPrice, brands))
  {
    match CheckedProduct(before, index)
    case Throws(e) => Throws(e)
    case Ok(checked) =>
      var checks := SoftChecks(before, after, checked, checkedAmount, minPrice, maxPrice, brands);
      IsFoundIffPresent(after, checked);
      PriceViolatorsEmptyIff(before, minPrice, maxPrice);
      ViolatorsEmpty(before, NoBrandIn(brands));
      assert AssertAll(checks).Passed? <==> checks[0].Pass? && checks[1].Pass? && checks[2].Pass? && checks[3].Pass?;
      Ok(AssertAll(checks))
  }

  /**
   * All four checks run whatever the others did: each one that fails is
   * among the reported failures: the product check without a message,
   * the other three with their own.
   */
  lemma RunChecksSoftlyReportsEveryFailure(before: seq<Product>, after: seq<Product>, checkedAmount: Int32,
                                           minPrice: Int32, maxPrice: Int32, brands: seq<string>, index: Int32)
    requires 0 <= index < |before|
    ensures var r := RunChecksSoftly(before, after, checkedAmount, minPrice, maxPrice, brands, index);
      && (before[index] !in after ==> r.value.Failed? && ProductNotFound in r.value.failures)
      && (|PriceViolators(before, minPrice, maxPrice)| > 0 ==>
            r.value.Failed? && PriceFilterViolated(PriceViolators(before, minPrice, maxPrice)) in r.value.failures)
      && (|BrandViolators(before, brands)| > 0 ==>
            r.value.Failed? && BrandFilterViolated(BrandViolators(before, brands)) in r.value.failures)
      && (|before| <= checkedAmount ==>
            r.value.Failed? && TooFewProducts(|before|) in r.value.failures)
  {
    var checked := before[index];
    var checks := SoftChecks(before, after, checked, checkedAmount, minPrice, maxPrice, brands);
    IsFoundIffPresent(after, checked);
    assert RunChecksSoftly(before, after, checkedAmount, minPrice, maxPrice, brands, index) == Ok(AssertAll(checks));
    var outcome := AssertAll(checks);
    if checks[0].Fail? {
      assert checks[0].failure in outcome.failures;
    }
    if checks[1].Fail? {
      assert checks[1].failure in outcome.failures;
    }
    if checks[2].Fail? {
      assert checks[2].failure in outcome.failures;
    }
    if checks[3].Fail? {
      assert checks[3].failure in outcome.failures;
    }
  }

  /**
   * `softCheckProductsAmountOnPage`: the same strict comparison, on the card
   * count; its message names both the threshold and the count.
   */
  function SoftCheckProductsAmountOnPage(cards: seq<Card>, checkedProductsAmount: Int32): (r: CheckResult)
    ensures r.Pass? <==> |cards| > checkedProductsAmount
    ensures r.Fail? ==> r.failure == TooFewCards(|cards|, checkedProductsAmount)
  {
    if |cards| > checkedProductsAmount then Pass else Fail(TooFewCards(|cards|, checkedProductsAmount))
  }

  /**
   * The card-count check and `checkProductsCount` give the same verdict on
   * every input, but report different messages.
   */
  lemma AmountCheckAgreesWithCountCheck(cards: seq<Card>, checkedProductsAmount: Int32)
    ensures SoftCheckProductsAmountOnPage(cards, checkedProductsAmount).Pass?
        == CheckProductsCount(|cards|, checkedProductsAmount).Pass?
    ensures SoftCheckProductsAmountOnPage(cards, checkedProductsAmount).Fail? ==>
      SoftCheckProductsAmountOnPage(cards, checkedProductsAmount) != CheckProductsCount(|cards|, checkedProductsAmount)
  {
  }

  /** `checkPageTitle`: the document title must contain the subcategory, case-sensitively. */
  function CheckPageTitle(b: Browser, subcategory: string): (r: CheckResult)
    ensures r.Pass? <==> Contains(b.title, subcategory)
    ensures r.Fail? ==> r.failure == PageTitleMismatch(b.title, subcategory)
  {
    if Contains(b.title, subcategory) then Pass else Fail(PageTitleMismatch(b.title, subcategory))
  }

  /** An empty subcategory matches every title, since every string contains the empty one. */
  lemma EmptySubcategoryAlwaysMatches(b: Browser)
    ensures CheckPageTitle(b, "") == Pass
  {
    assert OccursAt(b.title, "", 0);
  }

  /**
   * The suite's data set: prices 10000 to 20000, brands Lenovo and HP, the
   * first product checked, more than 12 products required. When every
   * collected product fits the filters and the first is found again, only
   * the count decides, and exactly 12 products fail with the count message
   * alone.
   */
  lemma DataSetScenario(before: seq<Product>, after: seq<Product>)
    requires |before| > 0 && before[0] in after
    requires forall i :: 0 <= i < |before| ==> 10000 <= before[i].price <= 20000
    requires forall i :: 0 <= i < |before| ==>
      Contains(before[i].title, "Lenovo") || Contains(before[i].title, "HP")
    ensures RunChecksSoftly(before, after, 12, 10000, 20000, ["Lenovo", "HP"], 0) == Ok(Passed) <==> |before| > 12
    ensures |before| == 12 ==>
      RunChecksSoftly(before, after, 12, 10000, 20000, ["Lenovo", "HP"], 0) == Ok(Failed([TooFewProducts(12)]))
  {
    var brands := ["Lenovo", "HP"];
    forall i | 0 <= i < |before|
      ensures MatchesAnyBrand(before[i].title, brands)
    {
      if Contains(before[i].title, "Lenovo") {
        assert brands[0] == "Lenovo";
      } else {
        assert brands[1] == "HP";
      }
    }
    PriceViolatorsEmptyIff(before, 10000, 20000);
    ViolatorsEmpty(before, NoBrandIn(brands));
    IsFoundIffPresent(after, before[0]);
    var checks := SoftChecks(before, after, before[0], 12, 10000, 20000, brands);
    assert RunChecksSoftly(before, after, 12, 10000, 20000, brands, 0) == Ok(AssertAll(checks));
    if |before| == 12 {
      assert checks == [Pass, Pass, Pass, Fail(TooFewProducts(12))];
      var last := [Fail(TooFewProducts(12))];
      assert Failures(last) == [TooFewProducts(12)] by {
        assert last[1..] == [];
      }
      assert Failures([Pass] + last) == Failures(last) by {
        assert ([Pass] + last)[1..] == last;
      }
      assert Failures([Pass, Pass] + last) == Failures([Pass] + last) by {
        assert ([Pass, Pass] + last)[1..] == [Pass] + last;
      }
      assert Failures(checks) == Failures([Pass, Pass] + last) by {
        assert checks[1..] == [Pass, Pass] + last;
      }
    }
  }
}

=== FILE: webdriver.dfy ===
/**
 * The browser, seen from the test suite as an oracle: which locators
 * `findElement` resolves, which ones an explicit visibility wait finds in
 * time, the rendered product cards and the document title. What the suite
 * does to the browser is recorded as a trace of commands.
 */
module WebDriver {
  import opened JavaLang

  /** A browser command the suite issues. Screenshots are requests for an attachment. */
  datatype Command =
    | Click(locator: string)
    | Hover(locator: string)
    | SendKeys(locator: string, text: string)
    | PressEnter(locator: string)
    | ScrollBy(dy: int)
    | Screenshot

  /** A product card; a sub-element the card lacks reads as `None`. */
  datatype Card = Card(title: Option<string>, priceText: Option<string>)

  /**
   * One state of the browser. `present` holds the locators `findElement`
   * resolves, `visible` those for which `wait.until(visibilityOfElementLocated(...))`
   * succeeds before its timeout.
   */
  datatype Browser = Browser(present: set<string>, visible: set<string>, cards: seq<Card>, title: string)

  /** Wait until `waitFor` is visible, then issue `command`. */
  datatype Step = Step(waitFor: string, command: Command)

  /** The commands issued, and the exception that ended the run early, if any. */
  datatype Run = Run(trace: seq<Command>, failure: Option<Exception>)

  function Commands(steps: seq<Step>): (r: seq<Command>)
    ensures |r| == |steps|
    ensures forall i :: 0 <= i < |steps| ==> r[i] == steps[i].command
  {
    seq(|steps|, i requires 0 <= i < |steps| => steps[i].command)
  }

  /**
   * Perform steps in order. The first wait that times out throws
   * `TimeoutException` and no later step runs.
   */
  function Perform(b: Browser, steps: seq<Step>): (r: Run)
    ensures |r.trace| <= |steps|
    ensures forall i :: 0 <= i < |r.trace| ==> steps[i].waitFor in b.visible && r.trace[i] == steps[i].command
    ensures r.failure.None? <==> forall i :: 0 <= i < |steps| ==> steps[i].waitFor in b.visible
    ensures r.failure.None? ==> r.trace == Commands(steps)
    ensures r.failure.Some? ==>
      (|r.trace| < |steps| && steps[|r.trace|].waitFor !in b.visible
       && r.failure == Some(TimeoutException(steps[|r.trace|].waitFor)))
  {
    if |steps| == 0 then Run([], None)
    else if steps[0].waitFor !in b.visible then Run([], Some(TimeoutException(steps[0].waitFor)))
    else
      var rest := Perform(b, steps[1..]);
      Run([steps[0].command] + rest.trace, rest.failure)
  }

  /** Run `first`, then `next` unless `first` threw. */
  function Then(first: Run, next: Run): (r: Run)
    ensures first.failure.Some? ==> r == first
    ensures first.failure.None? ==> r.trace == first.trace + next.trace && r.failure == next.failure
  {
    if first.failure.Some? then first else Run(first.trace + next.trace, next.failure)
  }

  /** Performing two step lists one after the other is performing their concatenation. */
  lemma {:induction false} PerformAppend(b: Browser, first: seq<Step>, next: seq<Step>)
    ensures Perform(b, first + next) == Then(Perform(b, first), Perform(b, next))
  {
    if |first| == 0 {
      assert first + next == next;
    } else if first[0].waitFor in b.visible {
      var all := first + next;
      assert all[0] == first[0] && all[1..] == first[1..] + next;
      PerformAppend(b, first[1..], next);
      PerformCons(b, all);
      PerformCons(b, first);
      ThenCons(first[0].command, Perform(b, first[1..]), Perform(b, next));
    } else {
      assert (first + next)[0] == first[0];
    }
  }

  /** A step whose wait succeeds issues its command ahead of the rest. */
  lemma PerformCons(b: Browser, steps: seq<Step>)
    requires |steps| > 0 && steps[0].waitFor in b.visible
    ensures Perform(b, steps) == Run([steps[0].command] + Perform(b, steps[1..]).trace, Perform(b, steps[1..]).failure)
  {
  }

  /** Prefixing a command commutes with sequencing. */
  lemma ThenCons(c: Command, first: Run, next: Run)
    ensures Then(Run([c] + first.trace, first.failure), next) == Run([c] + Then(first, next).trace, Then(first, next).failure)
  {
    if first.failure.None? {
      assert [c] + (first.trace + next.trace) == ([c] + first.trace) + next.trace;
    }
  }
}
